=== FILE: README.md ===
# node-persist storage engines in Dafny

node-persist is a file-backed key-value store. Its storage engine exists in three generations, and
each one is modelled here with the file system as a map from file name to parsed content, the
clock as a `now` parameter, and the JSON codec as the `Text` datatype (a value, or text that does
not parse).

- `Engine` (`engine.dfy`) is the current engine, `src/local-storage.js`. It keeps no index in memory.
  Every key lives in its own file, named by the md5 digest of the key, and the file holds the datum
  `{key, value, ttl}` with `ttl` as an absolute expiry time. The model covers:
  - `LocalStorage`, a class holding `options` and the directory `files`;
  - set, get and remove, with lazy expiry on read;
  - the directory scan behind `keys`, `values`, `length` and `valuesWithKeyMatch`;
  - the expiry sweep and `clear`;
  - the error policy of `readFile` and the `{removed, existed}` result of `deleteFile`.
- `EngineOptions` (`engine_options.dfy`) holds the current engine's option overlay, its ttl
  normalization and `calcTTL`.
- `LegacyEngine` (`legacy_engine.dfy`) is the older engine, `local-storage.js`, on its synchronous
  paths.
  - Its class keeps three maps in memory: `data`, `ttls` and `changes`.
  - Writes go through to `dir/key`, and the expiry timestamp to `dir-ttl/key`.
  - A persist pass writes exactly the keys flagged as changed.
- `WriteBackCache` (`write_back_cache.dfy`) is the oldest engine, `persist.js`: a module-level
  write-back cache.
  - `set` only marks a key dirty.
  - `persistKey` writes one key and clears its flag, and a persist pass flushes every dirty key.
  - `initSync` loads every visible file of the directory, or creates a missing directory.
- `Common` (`common.dfy`) is shared by the three: `Option`/`Result`, the hidden-name and substring
  tests, parsed text, directory listings, and map restriction with the lemmas the persist loops use.

How the foreign pieces become parameters:
- md5 is the constructor `Digest(key)`. That md5 has no collisions between keys is a modelling
  assumption (`Engine.DatumPathInjective` holds by construction). So is that a digest, being
  lower-case hex, never names a hidden file.
- That a file named by a key's digest holds that key's datum is a convention setItem keeps, not
  something the file system enforces: a datum copied by hand under another name stays where it is.
  `Engine.WellFormed` states the convention. Every method of the engine's class keeps it except
  the raw `WriteFile`, which can write any name and which only `SetItem` calls, with the key's
  digest. The lemmas about clear and the expiry sweep assume it.
- The legacy engine keeps data files in `dir` and ttl files in `dir + '-ttl'`. The model gives
  each directory its own map, so that the two never share a path is also a modelling assumption
  (`LegacyEngine.TtlFilesApart` holds by construction). It does not hold for a `dir` ending in a
  separator (see "Left out").
- Each engine's directory map stands for the directory named by `options.dir` when the instance
  is created.
- The order of `fs.readdir` and `for … in` is not chosen by the model. Scans return it as a ghost
  listing (`Enumerates`), or loop over a set with an arbitrary choice of the next element, so
  every property holds for every order.
- `stringify(undefined)` writes text that does not parse back (`Encode(None) == Garbage`).

Behaviours of the code that the model keeps, though a reader of the API might expect otherwise:
- `keys` and `values` of the current engine are not views over memory. The engine rescans the
  directory on every call, and the model does so too.
- The legacy `valuesWithKeyMatch` with a string does not keep the keys that contain the pattern.
  It keeps the keys that occur inside the pattern (`pattern.indexOf(key)`), which is the reverse
  (`LegacyEngine.Matches`).
- A `Date` given as ttl is not honoured. `isNumber` rejects it, so `calcTTL` gives it 24 hours.

Every query of the engine's class goes through the corrected, settling readDirectory (see
"Findings"). As written, each scanning operation (`keys`, `values`, `length`,
`valuesWithKeyMatch`, `removeExpiredItems`, `clear`) hangs under strict parsing when a visible
file is invalid, where the model returns that file's error (`Engine.ReadDirectoryAsWritten`).

## Model

| member | source | states |
|---|---|---|
| Engine.DatumPath | src/local-storage.js:186-188 | a key's file is never a hidden file, so directory scans always see it |
| Engine.DatumPathInjective | src/local-storage.js:34-36 | distinct keys have distinct files; a modelling assumption that holds by construction (md5 taken as collision-free) |
| Engine.IsValidStorageFileContent | src/local-storage.js:38-40 | a file is valid exactly when it parses to an object with a non-empty key, and a valid file is the encoding of its own datum |
| Engine.IsExpired | src/local-storage.js:42-44 | an expired datum has a ttl that lies before now; a datum without a ttl, or with ttl 0, never expires |
| Engine.Accepts | src/local-storage.js:42-48 | the isExpired filter keeps only data whose ttl lies before now; isNotExpired keeps every datum without a ttl or whose ttl is not yet past; the key filter of valuesWithKeyMatch keeps every key for the empty string and a key for itself, and only keys at least as long as the pattern |
| Engine.AfterGet | src/local-storage.js:165-167 | getItem removes the key's file exactly when it resolves undefined on a file that exists, and leaves every other file as it was |
| Engine.ReadFile | src/local-storage.js:263-282 | a missing file reads as `{}`; a valid file reads as its datum; an invalid file is `undefined` when parse errors are forgiven and otherwise an error naming the file; each case holds exactly when its condition does |
| Engine.Get | src/local-storage.js:163-171 | getItem is undefined for a missing file and for an expired datum, the value of a live datum otherwise; it fails exactly on an invalid file, with the file's error or, when forgiven, a TypeError |
| Engine.Visible | src/local-storage.js:248-251 | the names a scan reads are exactly the listed names that are not hidden |
| Engine.LoadCharacterized | src/local-storage.js:237-261 | a scan fails exactly when parse errors are not forgiven and some visible file is invalid; otherwise it yields one entry per visible file, in listing order, `undefined` for forgiven invalid files |
| Engine.LoadDefined | src/local-storage.js:243-255 | in any listing order, a scan fails exactly when parse errors are not forgiven and some visible file is invalid, and yields only defined entries exactly when every visible file is valid |
| Engine.LoadErrPersists | src/local-storage.js:248-253 | the first file that fails decides the scan's result: the files after it do not change it |
| Engine.ReadDirectoryAsWritten | src/local-storage.js:243-255 | as written, the scan's promise stays pending exactly when parse errors are not forgiven and some listed visible file is invalid, which is when the strict scan would fail, and otherwise settles with the corrected scan's result |
| Engine.StrictScanNeverSettles | src/local-storage.js:243-255 | with strict parsing, a directory holding one stray file makes readDirectory hang, where the intended result is the error naming that file |
| Engine.FilterDefined | src/local-storage.js:108-112 | `data.filter(f)` throws exactly when an entry is `undefined`; otherwise it keeps exactly the entries the filter accepts, never more entries than it was given |
| Engine.FilterDefinedOrder | src/local-storage.js:108-112 | what the filter keeps is a subsequence of the entries: their order is kept |
| Engine.FilterDefinedCounts | src/local-storage.js:108-112 | each accepted entry is kept as many times as it occurs, and an entry the filter rejects not at all |
| Engine.MapDefined | src/local-storage.js:113 | projecting `datum.key` or `datum.value` throws exactly when an entry is `undefined`; otherwise it has one projection per entry, in order |
| Engine.Query | src/local-storage.js:108-122 | keys(filter) and values(filter) pass a failed scan's error on; otherwise they throw exactly on an `undefined` entry; without a filter they project every entry in order, with one they project every accepted entry and never more than were read |
| Engine.Count | src/local-storage.js:124-130 | length without a filter counts every entry read, `undefined` ones included, even where keys() throws; with a filter it fails exactly on an `undefined` entry and otherwise equals the number of keys keys(filter) returns |
| Engine.ValuesWithKeyMatchAsWritten | src/local-storage.js:139-143 | as written, the empty pattern gives values(); any other string throws on a non-empty directory, because the key filter is applied to datum objects |
| Engine.KeyMatchFilterThrows | src/local-storage.js:139-143 | with one item "item1", matching "item" throws as written, where the intended result is that item's value |
| Engine.KeysBeforeUndefined | src/local-storage.js:211-213 | when every entry is defined, the keys clear removes are exactly the keys keys() returns |
| Engine.KeysBeforeUndefinedStops | src/local-storage.js:211-213 | clear stops at the first `undefined` entry: the keys after it are not removed |
| Engine.KeysBeforeUndefinedSnoc | src/local-storage.js:211-213 | one more defined entry adds its key to the keys clear removes, at the end |
| Engine.SetThenGet | src/local-storage.js:149-171 | getItem after setItem gives the value back unless the datum has expired, when it reads as undefined |
| Engine.SetThenGetAround | src/local-storage.js:149-171 | with the ttl calcTTL resolves at set time, the value reads back up to the expiry time; after it, getItem gives undefined and the key's file is gone |
| Engine.EmptyKeyUnreadable | src/local-storage.js:38-40 | a datum stored under the empty key never reads back: getItem rejects it as invalid, or throws when forgiven |
| Engine.ClearLeavesOnlyHidden | src/local-storage.js:209-214 | after clear over a well-formed directory only hidden files remain, unchanged, and getItem of every key is undefined |
| Engine.RemovedFileWasExpired | src/local-storage.js:202-207 | on a well-formed directory, every file the expiry sweep removes held a visible, valid, expired datum |
| Engine.ExpiredFileIsRemoved | src/local-storage.js:202-207 | on a well-formed directory, every visible file with a valid, expired datum is removed by the sweep |
| Engine.SweepRemovesExactlyExpired | src/local-storage.js:202-207 | on a well-formed directory, removeExpiredItems removes a file exactly when it holds a visible, valid, expired datum, and leaves every other file as it was |
| Engine.PlainFilesSurvive | src/local-storage.js:198-214 | removeItem, clear and the sweep unlink only key digests: a file under any other name is never removed |
| Engine.StrayDatumSurvives | src/local-storage.js:202-214 | a valid, expired datum under a name other than its key's digest makes the directory ill-formed and survives clear and the sweep |
| Engine.LocalStorage.constructor | src/local-storage.js:58-63 | a new instance resolves its options from the user's and sits over the existing directory |
| Engine.LocalStorage.SetOptions | src/local-storage.js:78-102 | the new options are the overlay of the user's options on the previous ones |
| Engine.LocalStorage.GetDatum | src/local-storage.js:173-175 | a missing key's file reads as `{}`; a datum found is the content of the key's file and has a non-empty key |
| Engine.LocalStorage.WriteFile | src/local-storage.js:284-294 | the file holds the datum afterwards and no other file changes |
| Engine.LocalStorage.DeleteFile | src/local-storage.js:296-317 | deleting never fails: it reports whether the file existed, and the file is gone afterwards with no other file changed; a well-formed directory stays well-formed |
| Engine.LocalStorage.SetItem | src/local-storage.js:149-157 | the key's file holds `{key, value, ttl}` with the ttl calcTTL resolves at `now`; no other file changes; a well-formed directory stays well-formed |
| Engine.LocalStorage.GetItem | src/local-storage.js:163-171 | the result is `Get` of the directory; an expired datum's file is removed and nothing else changes; a well-formed directory stays well-formed |
| Engine.LocalStorage.RemoveItem | src/local-storage.js:198-200 | the key's file is gone and the result says whether it existed, so a second removal finds nothing and changes nothing; a well-formed directory stays well-formed |
| Engine.LocalStorage.ReadDirectory | src/local-storage.js:237-261 | the scan reads the directory in some listing order and its result is `Load` over that listing: the corrected, settling readDirectory |
| Engine.LocalStorage.Keys | src/local-storage.js:108-114 | keys(filter) is the key of each entry the scan reads that the filter keeps; in any listing order it succeeds exactly when every visible file holds a valid datum (corrected readDirectory: as written, where this fails with an invalid file under strict parsing it hangs instead, see `Engine.ReadDirectoryAsWritten`) |
| Engine.LocalStorage.Values | src/local-storage.js:116-122 | values(filter) is the value of each entry the scan reads that the filter keeps; it succeeds exactly when every visible file holds a valid datum (corrected readDirectory: as written, where this fails with an invalid file under strict parsing it hangs instead, see `Engine.ReadDirectoryAsWritten`) |
| Engine.LocalStorage.Length | src/local-storage.js:124-130 | length is `Count` of the scan; without a filter it is the number of visible files and fails only on an invalid file under strict parsing; with a filter it succeeds exactly when every visible file is valid (corrected readDirectory: as written, where this fails with an invalid file under strict parsing it hangs instead, see `Engine.ReadDirectoryAsWritten`) |
| Engine.LocalStorage.ValuesWithKeyMatch | src/local-storage.js:139-143 | the corrected match: the values of the entries whose key contains the pattern, every entry for the empty pattern; it succeeds exactly when every visible file is valid (corrected readDirectory: as written, where this fails with an invalid file under strict parsing it hangs instead, see `Engine.ReadDirectoryAsWritten`) |
| Engine.LocalStorage.RemoveExpiredItems | src/local-storage.js:202-207 | fails exactly when keys(isExpired) fails, leaving the directory unchanged; otherwise it unlinks the file of every expired key; a well-formed directory stays well-formed (corrected readDirectory: as written, where this fails with an invalid file under strict parsing it hangs instead, see `Engine.ReadDirectoryAsWritten`) |
| Engine.LocalStorage.RemoveEachDatum | src/local-storage.js:211-213 | the loop of clear removes the file of each datum up to the first `undefined` entry, and throws exactly when there is one; a well-formed directory stays well-formed |
| Engine.LocalStorage.RemoveEachKey | src/local-storage.js:204-206 | the loop of removeExpiredItems removes the file of each key given and nothing else; a well-formed directory stays well-formed |
| Engine.LocalStorage.Clear | src/local-storage.js:209-214 | a failed scan changes nothing; otherwise clear unlinks the file of every datum read up to the first `undefined` entry, and fails exactly when there is one; a well-formed directory stays well-formed (corrected readDirectory: as written, where this fails with an invalid file under strict parsing it hangs instead, see `Engine.ReadDirectoryAsWritten`) |
| EngineOptions.NormalizeTtl | src/local-storage.js:92 | ttl is disabled exactly when the given ttl is falsy; a positive number is kept; any other truthy value becomes 24 hours |
| EngineOptions.ResolveOptions | src/local-storage.js:78-102 | without user options the defaults; otherwise each field is the user's own property, else the previous non-null option, else the default; ttl normalized |
| EngineOptions.ResolveIdempotent | src/local-storage.js:78-102 | passing the same user options twice has the effect of passing them once |
| EngineOptions.ResolveEmptyKeeps | src/local-storage.js:82-91 | an options object with no own properties keeps every non-null previous option |
| EngineOptions.CalcTtl | src/local-storage.js:357-365 | undefined takes the store's default; a defined falsy ttl gives no expiry even with a default; a positive number n expires at now + n; any other truthy value expires 24 hours from now; every expiry lies after now |
| LegacyEngine.ResolveOptions | local-storage.js:62-90 | without user options the defaults object; otherwise each field is the user's own property or the default, ttlDir is dir + '-ttl', and ttl is normalized, so a ttl always comes with a ttl directory |
| LegacyEngine.TtlFilesApart | local-storage.js:78 | a data file and a ttl file never share a path; a modelling assumption that holds by construction, since the two directories are separate maps (not so for a `dir` ending in a separator, see "Left out") |
| LegacyEngine.Reloaded | local-storage.js:604-619 | after a reload, each listed file holds its parsed content in the map, and every other entry of the map is kept |
| LegacyEngine.ParseDirSync | local-storage.js:604-619 | parseDirSync's loop over the listing yields exactly `Reloaded` |
| LegacyEngine.RestartSeesWrite | local-storage.js:604-619 | a value written to disk is found by a fresh instance exactly when its key is a listed file name |
| Common.Dirty | local-storage.js:400-407 | a persist pass writes exactly the keys of `data` whose change flag is truthy (persist.js:79-93 alike) |
| LegacyEngine.WrittenFiles | local-storage.js:456-466 | a persist pass writes exactly the dirty keys, each with its encoded value |
| LegacyEngine.WrittenTtlFiles | local-storage.js:456-466 | a persist pass writes the ttl file of exactly the dirty keys, each with its encoded timestamp |
| Common.ClearedFlags | local-storage.js:464 | a persist pass clears the flag of exactly the dirty keys (persist.js:98 alike) |
| LegacyEngine.FlushSyncs | local-storage.js:400-407 | after a persist pass no key of `data` is flagged, and from a synced state every key of `data` is on disk with its value |
| LegacyEngine.MatchingValues | local-storage.js:200-224 | at most one value per key, and one per key for the empty pattern, which the source turns into `/.*/` |
| LegacyEngine.MatchingValuesMembers | local-storage.js:214-219 | the values kept are those of exactly the keys that occur in the pattern |
| LegacyEngine.MatchingValuesOfListing | local-storage.js:200-224 | over a listing of the keys of `data`, every matching key's value is kept, nothing else is, and the empty pattern keeps one value per key |
| LegacyEngine.ValuesOfListing | local-storage.js:189-191 | values read along a listing of the keys hold every key's value and nothing else |
| LegacyEngine.Matches | local-storage.js:204-212 | the empty pattern (turned into `/.*/`) accepts every key; a string accepts the key equal to it, and only keys no longer than itself, since the key must occur inside the pattern |
| LegacyEngine.ExpiredIn | local-storage.js:673-676 | a key is never expired without a configured ttl or without a timestamp; an expired key's timestamp lies before now |
| LegacyEngine.ExpiryPersists | local-storage.js:673-676 | a key expired at one time stays expired at every later time |
| LegacyEngine.LocalStorage.SetThenGetSync | local-storage.js:272-303 | setItemSync at t0 then getItemSync at t1 gives the value back, stored in memory and on disk, unless a ttl is configured and t0 + ttl < t1; then it gives undefined and the key has left memory and disk; a synced state stays synced |
| LegacyEngine.LocalStorage.constructor | local-storage.js:46-58 | a new instance has empty maps, resolved options and the existing directories, and is synced |
| LegacyEngine.LocalStorage.SetOptions | local-storage.js:62-90 | the options in force become those resolved from the user's |
| LegacyEngine.LocalStorage.IsExpired | local-storage.js:673-676 | a key is expired exactly when a ttl is configured and its timestamp lies before now; never without a ttl, never without a timestamp |
| LegacyEngine.LocalStorage.InitSync | local-storage.js:135-157 | options first when given; then `data` is reloaded from the data directory and, with a ttl, `ttls` from the ttl directory; from empty memory the state is synced |
| LegacyEngine.LocalStorage.Keys | local-storage.js:170-172 | every key of `data` exactly once |
| LegacyEngine.LocalStorage.Length | local-storage.js:174-176 | the number of keys in `data` |
| LegacyEngine.LocalStorage.Key | local-storage.js:159-168 | null exactly when n is at least the length, `undefined` exactly when n is negative, otherwise a key of `data` |
| LegacyEngine.LocalStorage.Values | local-storage.js:184-197 | one value per key of `data`, in the order of the listing of keys: every key's value appears and nothing else does |
| LegacyEngine.LocalStorage.ValuesWithKeyMatch | local-storage.js:200-224 | the values of the keys matching the string, in listing order (`MatchingValues`): every matching key's value appears, nothing else does, and the empty pattern gives one value per key |
| LegacyEngine.LocalStorage.PersistKeySync | local-storage.js:456-466 | writes the key's value, and its timestamp when a ttl is configured, then clears its flag; a synced state stays synced |
| LegacyEngine.LocalStorage.SetItemSync | local-storage.js:272-279 | stores the value and, with a ttl, the expiry now + ttl, writes both through and clears the flag; a synced state stays synced |
| LegacyEngine.LocalStorage.SetItem | local-storage.js:226-270 | stores the value and expiry; in interval mode it fails with a ReferenceError and writes nothing; in continuous mode it writes through; otherwise it never settles |
| LegacyEngine.LocalStorage.RemovePersistedKeySync | local-storage.js:678-691 | the key's data file and, with a ttl, its ttl file are gone; an absent file is no error |
| LegacyEngine.LocalStorage.RemoveItemSync | local-storage.js:328-333 | the key leaves `data`, `ttls` and disk; a synced state stays synced |
| LegacyEngine.LocalStorage.GetItemSync | local-storage.js:297-303 | an expired key reads as undefined and is removed from memory and disk; otherwise the value is returned and nothing changes |
| LegacyEngine.LocalStorage.ClearSync | local-storage.js:363-371 | the files of every key of `data` are unlinked and the three maps are empty |
| LegacyEngine.LocalStorage.PersistSync | local-storage.js:400-407 | writes exactly the flagged keys of `data` and clears their flags; afterwards no key is flagged, and from a synced state every key is on disk with its value |
| WriteBackCache.Overlay | persist.js:128-134 | each field is the user's value when truthy, else the base's |
| WriteBackCache.ResolveOptions | persist.js:124-136 | the corrected setOptions: the defaults without user options, otherwise each truthy user value over the defaults; a directory, an interval and the flush timer are always set |
| WriteBackCache.SetOptionsAsWritten | persist.js:124-136 | as written: without user options `options` becomes the defaults object itself, and from then on every call writes its fields into the defaults |
| WriteBackCache.AsWrittenAgreesBeforeAliasing | persist.js:124-136 | until `options` has become the defaults object, the code as written agrees with the corrected setOptions |
| WriteBackCache.DefaultsLeak | persist.js:125-134 | init(null), init({dir:'x'}), init({}) leaves dir 'x' as written, where the defaults give 'persist' |
| WriteBackCache.WrittenFiles | persist.js:95-101 | a persist pass writes exactly the dirty keys, each with its encoded value |
| WriteBackCache.FlushSyncs | persist.js:79-93 | after a persist pass no key of `data` is dirty, and a synced state stays synced |
| WriteBackCache.Loaded | persist.js:57-69 | initSync loads exactly the visible files whose text parses, each with its parsed value |
| WriteBackCache.Persist.constructor | persist.js:4-16 | the module starts with empty options, no data and no flags, and is synced |
| WriteBackCache.Persist.SetOptions | persist.js:124-136 | the options become the corrected resolution of the user's |
| WriteBackCache.Persist.Get | persist.js:113-115 | the value set for the key, undefined for a key never set |
| WriteBackCache.Persist.Set | persist.js:117-122 | get(key) is the new value and the key is dirty; every other key keeps its value and its flag; a synced state stays synced |
| WriteBackCache.Persist.PersistKey | persist.js:95-101 | writes the key's encoded value to `dir/key` when the directory exists and clears the flag either way; the write fails (`thrown`) exactly when the directory is missing; data is unchanged |
| WriteBackCache.Persist.PersistKeySync | persist.js:103-111 | the same write and flag; the write's callback throws exactly when the directory is missing |
| WriteBackCache.Persist.Persist | persist.js:79-85 | writes exactly the dirty keys and clears their flags; afterwards no key is dirty, and with the directory present a synced state stays synced; a write fails (`thrown`) exactly when the directory is missing and some key is dirty |
| WriteBackCache.Persist.PersistSync | persist.js:87-93 | the same pass through persistKeySync, with the same failure |
| WriteBackCache.Persist.InitSync | persist.js:48-77 | a missing directory is created and data is unchanged; otherwise every visible file is loaded, and the load fails exactly when a visible file does not parse; the model records which file failed, which the source's SyntaxError from `options.parse` does not name; on that failure every key held before is kept, with its old value unless a file loaded before the failure replaced it |
| Common.EnumerationSize | local-storage.js:174-176 | a listing that names every key once is as long as the set of keys |

## Left out

- File system, md5, JSON and `copy` become the directory map, the `Digest` constructor and the `Text` datatype. `copy` is the identity on modelled values.
- `isNumber` on numeric strings and floating-point ttls is not modelled. A ttl is one of `Undefined | Falsy | Num(int) | NonNumeric`.
- `options.dir` does not pick a directory in the model: each engine's directory map stands for the directory `options.dir` names when the instance is created. Changing `dir` later through `setOptions`/`init`, and the legacy `ttlDir` derived from it, do not move the files the model reads and writes.
- A valid datum stored by hand under a file name other than its key's digest is not removed by `clear` or by `removeExpiredItems`, which unlink only `md5(datum.key)` (`Engine.StrayDatumSurvives`). The lemmas about clear and the sweep assume a well-formed directory.
- WriteBackCache.Persist.PersistKey: the model assumes a Node runtime from 0.10 to 9, where a callback-less `fs.writeFile` gets a callback that rethrows its failure after the flag is cleared (`thrown`). On Node 10 and later the call throws a TypeError at once, before the flag is cleared, and on Node 0.8 and earlier the failure is ignored; neither is modelled. As with persistKeySync, the model reports the failure as a flag and goes on.
- Engine.Filter: `keys`, `values` and `length` accept any user function as filter. The model has only the three filters the engine builds itself (isExpired, isNotExpired and the key match), each of which throws on an `undefined` entry. So the rows for Engine.LocalStorage.Keys, Engine.LocalStorage.Values and Engine.LocalStorage.Length hold for these filters only: a user filter such as `d => d && d.key === 'a'` can succeed over a forgiven invalid file.
- EngineOptions.UserOptions: an own `dir` property holding null or undefined is not expressible, since `dir` is either absent or a path. In the source setOptions copies such a value and `resolveDir` then throws in `path.normalize`.
- LegacyEngine.LocalStorage.Key: a fractional or non-numeric `n` is not modelled. `n` is an integer.
- `resolveDir` is the identity in both engines. The current engine normalizes the path and makes a relative one absolute against the working directory. The legacy engine joins a relative one under `storage` beside its own source file, and does the same to an absolute one that ends in a separator, since `path.resolve` strips the trailing separator and the comparison fails.
- LegacyEngine.TtlFilesApart: for a `dir` ending in a separator, `ttlDir = dir + '-ttl'` lies inside the data directory, so the ttl directory shows up as a data file `-ttl` that a restart's `parseDirSync` would read. The model's separate maps for the two directories do not capture this case.
- The default directory name built from package.json's name is not modelled. package.json is not part of this model.
- Timers (`setInterval`, the expiry and persist intervals, `unref`) are not modelled. One call to `removeExpiredItems` or `persistSync` stands for a tick.
- The clock becomes a `now` parameter.
- Promise, Q and callback plumbing and logging are not modelled.
- `getRawDatum`, `getDatumValue`, `forEach` and `data()` are thin wrappers and are not modelled.
- The RegExp branch of `valuesWithKeyMatch` needs a regular-expression engine. Only the empty pattern, which the source turns into `/.*/`, is covered.
- `ensureDirectory`, and readDirectory's rejection on a missing directory, are not modelled. The directory is assumed to exist.
- The ENOENT race in `deleteFile` and I/O errors other than a missing file are not modelled.
- The legacy async variants (`init`, `parseDir`, `getItem`, `removeItem`, `clear`, `persist`, `persistKey`, `removePersistedKey`) are not modelled, apart from the outcome of `setItem`. This includes the race in `parseDir`.
- The legacy engine's missing-directory creation (mkdirp) is not modelled, and neither is a key containing `/` or equal to `.` or `..`, which `path.join` would resolve elsewhere. A key is a plain file name.
- LegacyEngine.LocalStorage.SetItem: the continuous-mode write is performed at once. The asynchronous write's own failures are not modelled.
- The external logging function option is not modelled.
- WriteBackCache.Persist.PersistKeySync: the thrown failure ends the process in the source. The model reports it as a flag and goes on.
- persist.js `init` and `parseFile` (asynchronous) are not modelled.
- WriteBackCache.Persist.PersistKey, WriteBackCache.Persist.PersistKeySync: before the first `setOptions`, `options` is the empty object, so both throw a TypeError at `options.stringify` before writing anything, and the key's flag stays set. The model's `PersistKey` and `PersistKeySync` do not look at `options`: before `SetOptions` they write and clear the flag as they do afterwards.
- `stringify`/`parse`/`encoding`/`logging` options of persist.js are not modelled, because the codec is abstract.
- node-persist.js and src/node-persist.js only delegate, and are not modelled. Neither are the examples.
- The write queue and `updateItem` that the tests mention do not exist in these engines.

## Findings

| source | as written | input that shows it | evidently intended | confidence | as-written member | corrected member |
|---|---|---|---|---|---|---|
| src/local-storage.js:243-255 | the readdir callback is an `async` function, so a readFile rejection inside it is never passed to the returned promise, which then never settles; the rejection is also unhandled, which on Node 15 and later ends the process unless a handler is installed | strict parsing, a directory holding one file `foo.bar` that is not a storage file, then `keys()` | reject with "foo.bar does not look like a valid storage file" | not executed | Engine.StrictScanNeverSettles | Engine.LocalStorage.ReadDirectory |
| src/local-storage.js:139-143 | the key filter `key => key.indexOf(match) !== -1` is handed to `values(filter)`, which applies it to datum objects, and a datum has no `indexOf` | one item `item1`, then `valuesWithKeyMatch('item')` | the value of `item1` | not executed | Engine.KeyMatchFilterThrows | Engine.LocalStorage.ValuesWithKeyMatch |
| persist.js:124-136 | `options = defaults` makes the two the same object, so a later call writes the user's fields into the defaults | `init(null)`, then `init({dir: 'x'})`, then `init({})` | dir `persist` after the last call | not executed | WriteBackCache.DefaultsLeak | WriteBackCache.ResolveOptions |

=== FILE: common.dfy ===
/** Shared vocabulary of the three storage engines: failure-carrying results, the string tests
    they perform on file names and keys, parsed file text, and directory listings. */
module Common {

  datatype Option<+T> = None | Some(value: T)

  datatype Result<+T, +E> = Ok(value: T) | Err(error: E)

  /** Milliseconds in 24 hours: the ttl used when a ttl is truthy but not a positive number. */
  const DAY_MS: int := 24 * 60 * 60 * 1000

  /** A positive duration in milliseconds: the only form a normalized `ttl` option takes besides `false`. */
  type Duration = d: int | d > 0 witness 1

  /** `name[0] === '.'`: directory scans skip names that start with a dot. */
  predicate Hidden(name: string)
  {
    |name| > 0 && name[0] == '.'
  }

  /** `needle` occurs in `haystack` starting at index `i`. */
  predicate OccursAt(haystack: string, needle: string, i: int)
  {
    0 <= i && i + |needle| <= |haystack| && haystack[i..i + |needle|] == needle
  }

  /** `haystack.indexOf(needle) !== -1` */
  predicate Contains(haystack: string, needle: string)
  {
    exists i | 0 <= i <= |haystack| - |needle| :: OccursAt(haystack, needle, i)
  }

  /** `m[k]`, where a missing property reads as `undefined`. */
  function Lookup<K, T>(m: map<K, Option<T>>, k: K): (r: Option<T>)
    ensures k !in m ==> r == None
    ensures r.Some? ==> k in m && m[k] == r
  {
    if k in m then m[k] else None
  }

  /** The text of a file once parsed by the configured codec: a value of the expected kind,
      or text that does not parse as one. */
  datatype Text<T> = Encoded(value: T) | Garbage

  /** `stringify(x)` written to a file; stringify(undefined) is undefined, whose written form
      does not parse back. */
  function Encode<T>(x: Option<T>): Text<T>
  {
    if x.Some? then Encoded(x.value) else Garbage
  }

  /** parseString: the parsed value, or undefined when the text does not parse. */
  function Parse<T>(t: Text<T>): Option<T>
  {
    if t.Encoded? then Some(t.value) else None
  }

  lemma ParseEncode<T>(x: Option<T>)
    ensures Parse(Encode(x)) == x
  {
  }

  /** `r` lists every element of `s` exactly once. */
  ghost predicate Enumerates<K(!new)>(r: seq<K>, s: set<K>)
  {
    && (forall k :: k in r <==> k in s)
    && (forall i, j | 0 <= i < j < |r| :: r[i] != r[j])
  }

  /** fs.readdir and Object.keys: every element once, in an order the caller does not choose. */
  method Enumerate<K(!new)>(s: set<K>) returns (r: seq<K>)
    ensures Enumerates(r, s)
  {
    r := [];
    var remaining := s;
    while remaining != {}
      invariant remaining <= s
      invariant forall k :: k in r <==> k in s && k !in remaining
      invariant forall i, j | 0 <= i < j < |r| :: r[i] != r[j]
      decreases remaining
    {
      var k :| k in remaining;
      r := r + [k];
      remaining := remaining - {k};
    }
  }

  /** A listing without repetitions is as long as the set it lists. */
  lemma {:induction false} EnumerationSize<K(!new)>(r: seq<K>, s: set<K>)
    requires Enumerates(r, s)
    ensures |r| == |s|
  {
    if r != [] {
      var rest := r[1..];
      assert forall k :: k in rest <==> k in s - {r[0]} by {
        forall k ensures k in rest <==> k in s - {r[0]} {
          if k in rest {
            var j :| 0 <= j < |rest| && rest[j] == k;
            assert r[j + 1] == k;
          }
          if k in s - {r[0]} {
            var j :| 0 <= j < |r| && r[j] == k;
            assert j != 0;
            assert rest[j - 1] == k;
          }
        }
      }
      EnumerationSize(rest, s - {r[0]});
    }
  }

  /** `changes[key]` is truthy. */
  predicate Flagged(changes: map<string, bool>, key: string)
  {
    key in changes && changes[key]
  }

  /** The keys of `data` a persist pass writes: those whose change flag is truthy. */
  function Dirty<V>(data: map<string, V>, changes: map<string, bool>): (r: set<string>)
    ensures forall k :: k in r <==> k in data && Flagged(changes, k)
  {
    set k | k in data && Flagged(changes, k)
  }

  /** The flags a persist pass clears. */
  function ClearedFlags<V>(data: map<string, V>, changes: map<string, bool>): (r: map<string, bool>)
    ensures r.Keys == Dirty(data, changes)
    ensures forall k | k in r :: !r[k]
  {
    map k | k in Dirty(data, changes) :: false
  }

  /** The part of `m` on the keys in `s`. */
  function Restrict<K, T>(m: map<K, T>, s: set<K>): (r: map<K, T>)
    ensures r.Keys == m.Keys * s
    ensures forall k | k in r :: r[k] == m[k]
  {
    map k | k in s && k in m :: m[k]
  }

  lemma RestrictAll<K, T>(m: map<K, T>, s: set<K>)
    requires m.Keys <= s
    ensures Restrict(m, s) == m
  {
  }

  /** One step of writing the keys of `s` from `m` over `base`, in any order: before the step
      the key is untouched, after it the written part has grown by that key if it is in `s`. */
  lemma OverlayAdvance<K, T>(base: map<K, T>, m: map<K, T>, s: set<K>, remaining: set<K>, k: K)
    requires k in remaining && (k in s ==> k in m)
    ensures var before := base + Restrict(m, s - remaining);
      && (k in before <==> k in base)
      && (k in base ==> before[k] == base[k])
      && (k in s ==> before[k := m[k]] == base + Restrict(m, s - (remaining - {k})))
      && (k !in s ==> before == base + Restrict(m, s - (remaining - {k})))
  {
    var before := base + Restrict(m, s - remaining);
    assert k !in Restrict(m, s - remaining);
    if k in s {
      assert s - (remaining - {k}) == (s - remaining) + {k};
    } else {
      assert s - (remaining - {k}) == s - remaining;
    }
  }
}

=== FILE: engine.dfy ===
/** The current storage engine (src/local-storage.js). It keeps no index in memory: every key
    lives in its own file, named by the md5 digest of the key, holding the datum
    {key, value, ttl}. The directory is a map from file name to parsed content and the clock
    is a `now` parameter. */
module Engine {
  import opened Common
  import opened EngineOptions

  /** A file name in the storage directory. The md5 digest of a key is modelled as an injective
      constructor; digests are lower-case hex, so they are never hidden. Any other file is Plain. */
  datatype FileName = Digest(key: string) | Plain(name: string)

  predicate HiddenFile(f: FileName)
  {
    f.Plain? && Hidden(f.name)
  }

  /** getDatumPath: `path.join(options.dir, md5(key))`. */
  function DatumPath(key: string): (f: FileName)
    ensures !HiddenFile(f)
  {
    Digest(key)
  }

  lemma DatumPathInjective(a: string, b: string)
    ensures DatumPath(a) == DatumPath(b) ==> a == b
  {
  }

  /** The record stored per key; `ttl` is an absolute timestamp, absent when the datum never expires. */
  datatype Datum<V> = Datum(key: string, value: V, ttl: Option<int>)

  /** What a file holds once parsed: an object with key, value and ttl fields (a missing key
      reads as ""), or text that does not parse. */
  type FileContent<V> = Text<Datum<V>>

  type Directory<V> = map<FileName, FileContent<V>>

  /** isValidStorageFileContent: `content && content.key`. */
  function IsValidStorageFileContent<V>(c: FileContent<V>): (r: bool)
    ensures r ==> Parse(c).Some? && Encode(Parse(c)) == c
    ensures !r <==> Parse(c).None? || Parse(c).value.key == ""
  {
    c.Encoded? && c.value.key != ""
  }

  /** isExpired: `datum.ttl && datum.ttl < now`. */
  function IsExpired<V>(d: Datum<V>, now: nat): (r: bool)
    ensures r ==> d.ttl.Some? && d.ttl.value < now
    ensures d.ttl.None? || d.ttl == Some(0) ==> !r
  {
    d.ttl.Some? && d.ttl.value != 0 && d.ttl.value < now
  }

  datatype Error =
    | InvalidStorageFile(file: FileName)  // "<file> does not look like a valid storage file!"
    | TypeError                           // a property read on `undefined` or a missing method

  /** What readFile resolves to: `{}` for a missing file, the datum, or `undefined` (Forgiven) for an invalid file when parse errors are forgiven. */
  datatype Read<V> = EmptyObject | Found(datum: Datum<V>) | Forgiven

  /** deleteFile's result `{file, removed, existed}`. */
  datatype Deletion = Deletion(file: FileName, removed: bool, existed: bool)

  /** readFile (not raw): a missing file is not an error; an invalid one is an error,
      or `undefined` when parse errors are forgiven. */
  function ReadFile<V>(files: Directory<V>, forgive: bool, file: FileName): (r: Result<Read<V>, Error>)
    ensures r == Ok(EmptyObject) <==> file !in files
    ensures r.Ok? && r.value.Found? <==> file in files && IsValidStorageFileContent(files[file])
    ensures r.Ok? && r.value.Found? ==> files[file] == Encoded(r.value.datum)
    ensures r.Ok? && r.value.Forgiven? <==> file in files && !IsValidStorageFileContent(files[file]) && forgive
    ensures r.Err? ==> !forgive && r.error == InvalidStorageFile(file)
  {
    if file !in files then Ok(EmptyObject)
    else if IsValidStorageFileContent(files[file]) then Ok(Found(files[file].value))
    else if forgive then Ok(Forgiven)
    else Err(InvalidStorageFile(file))
  }

  /** The value getItem resolves to, or the error it rejects with. A missing file reads as `{}`,
      which is not expired and has no value; an expired datum reads as undefined; a forgiven
      invalid file reads as `undefined`, on which isExpired throws. */
  function Get<V>(files: Directory<V>, forgive: bool, key: string, now: nat): (r: Result<Option<V>, Error>)
    ensures DatumPath(key) !in files ==> r == Ok(None)
    ensures r.Err? <==> DatumPath(key) in files && !IsValidStorageFileContent(files[DatumPath(key)])
    ensures r.Err? ==> r.error == if forgive then TypeError else InvalidStorageFile(DatumPath(key))
    ensures r.Ok? && r.value.Some? <==>
      DatumPath(key) in files && IsValidStorageFileContent(files[DatumPath(key)])
      && !IsExpired(files[DatumPath(key)].value, now)
    ensures r.Ok? && r.value.Some? ==> r.value.value == files[DatumPath(key)].value.value
  {
    match ReadFile(files, forgive, DatumPath(key))
    case Err(e) => Err(e)
    case Ok(EmptyObject) => Ok(None)
    case Ok(Forgiven) => Err(TypeError)
    case Ok(Found(d)) => if IsExpired(d, now) then Ok(None) else Ok(Some(d.value))
  }

  /** getItem removes the file of a datum it finds expired. */
  function AfterGet<V>(files: Directory<V>, key: string, now: nat): (r: Directory<V>)
    ensures forall f | f in r :: f in files && r[f] == files[f]
    ensures forall f | f in files && f != DatumPath(key) :: f in r
    ensures forall forgive: bool :: DatumPath(key) !in r <==> Get(files, forgive, key, now) == Ok(None)
  {
    var f := DatumPath(key);
    if f in files && IsValidStorageFileContent(files[f]) && IsExpired(files[f].value, now) then files - {f} else files
  }

  /** The directory after removeItem of every key in `keys`. */
  function Unlinked<V>(files: Directory<V>, keys: seq<string>): Directory<V>
  {
    files - set k | k in keys :: DatumPath(k)
  }

  /** Removing one more key's file. */
  lemma UnlinkedSnoc<V>(files: Directory<V>, keys: seq<string>, k: string)
    ensures Unlinked(files, keys + [k]) == Unlinked(files, keys) - {DatumPath(k)}
  {
    assert (set x | x in keys + [k] :: DatumPath(x)) == (set x | x in keys :: DatumPath(x)) + {DatumPath(k)};
  }

  /** `order` is a listing of the directory as fs.readdir gives it: every name once, in some order. */
  ghost predicate IsListing<V>(order: seq<FileName>, files: Directory<V>)
  {
    Enumerates(order, files.Keys)
  }

  /** The names of a listing that the scan reads, in listing order. */
  function Visible(order: seq<FileName>): (r: seq<FileName>)
    ensures forall f :: f in r <==> f in order && !HiddenFile(f)
  {
    if order == [] then []
    else
      var last := order[|order| - 1];
      assert order == order[..|order| - 1] + [last];
      Visible(order[..|order| - 1]) + if HiddenFile(last) then [] else [last]
  }

  /** The entry readDirectory pushes for a listed file: its datum, or `undefined` when forgiven. */
  function Entry<V>(c: FileContent<V>): Option<Datum<V>>
  {
    if IsValidStorageFileContent(c) then Some(c.value) else None
  }

  /** The entries of the given names, one per name, in order: the reference for what a scan returns. */
  function Entries<V>(files: Directory<V>, names: seq<FileName>): seq<Option<Datum<V>>>
    requires forall f | f in names :: f in files
  {
    seq(|names|, i requires 0 <= i < |names| => Entry(files[names[i]]))
  }

  predicate AllDefined<V>(entries: seq<Option<Datum<V>>>)
  {
    forall i | 0 <= i < |entries| :: entries[i].Some?
  }

  /** readDirectory over a listing: reads every visible file in listing order and stops at the
      first file readFile rejects. */
  function Load<V>(files: Directory<V>, forgive: bool, order: seq<FileName>): Result<seq<Option<Datum<V>>>, Error>
    requires forall f | f in order :: f in files
  {
    if order == [] then Ok([])
    else
      var last := order[|order| - 1];
      match Load(files, forgive, order[..|order| - 1])
      case Err(e) => Err(e)
      case Ok(entries) =>
        if HiddenFile(last) then Ok(entries)
        else
          match ReadFile(files, forgive, last)
          case Err(e) => Err(e)
          case Ok(read) => Ok(entries + [if read.Found? then Some(read.datum) else None])
  }

  /** A scan fails exactly when parse errors are not forgiven and some visible file is invalid;
      otherwise it yields one entry per visible file, in listing order. */
  lemma {:induction false} LoadCharacterized<V>(files: Directory<V>, forgive: bool, order: seq<FileName>)
    requires forall f | f in order :: f in files
    ensures Load(files, forgive, order).Err? <==>
      !forgive && exists f | f in order :: !HiddenFile(f) && !IsValidStorageFileContent(files[f])
    ensures Load(files, forgive, order).Ok? ==> Load(files, forgive, order).value == Entries(files, Visible(order))
  {
    if order != [] {
      var prefix, last := order[..|order| - 1], order[|order| - 1];
      assert order == prefix + [last];
      LoadCharacterized(files, forgive, prefix);
      if Load(files, forgive, prefix).Ok? && !HiddenFile(last) {
        var vis := Visible(prefix);
        assert Visible(order) == vis + [last];
        if Load(files, forgive, order).Ok? {
          assert Entries(files, vis + [last]) == Entries(files, vis) + [Entry(files[last])];
        }
      }
    }
  }

  /** Once a prefix of the listing has failed, the whole scan fails with the same error. */
  lemma {:induction false} LoadErrPersists<V>(files: Directory<V>, forgive: bool, order: seq<FileName>, k: nat)
    requires forall f | f in order :: f in files
    requires k <= |order| && Load(files, forgive, order[..k]).Err?
    ensures Load(files, forgive, order) == Load(files, forgive, order[..k])
  {
    if k < |order| {
      var prefix := order[..|order| - 1];
      assert prefix[..k] == order[..k];
      LoadErrPersists(files, forgive, prefix, k);
    } else {
      assert order[..k] == order;
    }
  }

  /** Every visible file of the directory holds a valid datum. */
  predicate AllValid<V>(files: Directory<V>)
  {
    forall f | f in files && !HiddenFile(f) :: IsValidStorageFileContent(files[f])
  }

  /** Whatever the listing order, a scan fails exactly when parse errors are not forgiven and
      some visible file is invalid, and it succeeds with every entry defined exactly when every
      visible file is valid. */
  lemma {:induction false} LoadDefined<V>(files: Directory<V>, forgive: bool, order: seq<FileName>)
    requires IsListing(order, files)
    ensures Load(files, forgive, order).Err? <==> !forgive && !AllValid(files)
    ensures Load(files, forgive, order).Ok? && AllDefined(Load(files, forgive, order).value) <==> AllValid(files)
  {
    LoadCharacterized(files, forgive, order);
    var vis := Visible(order);
    if AllValid(files) {
      assert Load(files, forgive, order).Ok?;
      forall i | 0 <= i < |vis|
        ensures Entries(files, vis)[i].Some?
      {
        assert vis[i] in vis;
      }
    }
    if Load(files, forgive, order).Ok? && AllDefined(Load(files, forgive, order).value) {
      forall f | f in files && !HiddenFile(f)
        ensures IsValidStorageFileContent(files[f])
      {
        assert f in vis;
        var i :| 0 <= i < |vis| && vis[i] == f;
        assert Entries(files, vis)[i] == Entry(files[f]);
      }
    }
  }

  /** What the code as written does with a scan: the readdir callback is an async function whose
      rejection nobody observes, so when a readFile rejects the returned promise never settles. */
  datatype Scan<V> = Settled(result: Result<seq<Option<Datum<V>>>, Error>) | Pending

  function ReadDirectoryAsWritten<V>(files: Directory<V>, forgive: bool, order: seq<FileName>): (r: Scan<V>)
    requires forall f | f in order :: f in files
    ensures r == Pending <==> Load(files, forgive, order).Err?
    ensures r != Pending ==> r == Settled(Load(files, forgive, order))
    ensures r == Pending <==> !forgive && exists f | f in order :: !HiddenFile(f) && !IsValidStorageFileContent(files[f])
  {
    LoadCharacterized(files, forgive, order);
    match Load(files, forgive, order)
    case Err(_) => Pending
    case Ok(entries) => Settled(Ok(entries))
  }

  /** A directory holding one stray file and strict parsing: as written, every query over it hangs,
      where the error naming the file is what the code means to report. */
  lemma StrictScanNeverSettles<V>()
    ensures var files: Directory<V> := map[Plain("foo.bar") := Garbage];
      && ReadDirectoryAsWritten(files, false, [Plain("foo.bar")]) == Pending
      && Load(files, false, [Plain("foo.bar")]) == Err(InvalidStorageFile(Plain("foo.bar")))
  {
    var files: Directory<V> := map[Plain("foo.bar") := Garbage];
    assert [Plain("foo.bar")][..0] == [];
  }

  /** The filters the engine passes to `data.filter`: isExpired, its negation isNotExpired, and
      the key test of valuesWithKeyMatch with a string. Each reads a property of the datum. */
  datatype Filter = IsExpiredAt(now: nat) | IsNotExpiredAt(now: nat) | KeyContains(pattern: string)

  function Accepts<V>(filter: Filter, d: Datum<V>): (r: bool)
    ensures filter.IsExpiredAt? && r ==> d.ttl.Some? && d.ttl.value < filter.now
    ensures filter.IsNotExpiredAt? && (d.ttl.None? || d.ttl.value >= filter.now) ==> r
    ensures filter == KeyContains("") || filter == KeyContains(d.key) ==> r
    ensures filter.KeyContains? && r ==> |filter.pattern| <= |d.key|
  {
    assert OccursAt(d.key, d.key, 0) && OccursAt(d.key, "", 0);
    match filter
    case IsExpiredAt(now) => IsExpired(d, now)
    case IsNotExpiredAt(now) => !IsExpired(d, now)
    case KeyContains(pattern) => Contains(d.key, pattern)
  }

  /** `a` is `b` with some elements left out, the rest in their order. */
  ghost predicate IsSubsequence<T>(a: seq<T>, b: seq<T>)
    decreases |b|
  {
    a == [] || (b != [] && ((a[0] == b[0] && IsSubsequence(a[1..], b[1..])) || IsSubsequence(a, b[1..])))
  }

  /** `data.filter(filter)`: applying the filter to an `undefined` entry throws. */
  function FilterDefined<V>(entries: seq<Option<Datum<V>>>, filter: Filter): (r: Result<seq<Option<Datum<V>>>, Error>)
    ensures r.Ok? <==> AllDefined(entries)
    ensures r.Err? ==> r.error == TypeError
    ensures r.Ok? ==> AllDefined(r.value) && |r.value| <= |entries|
    ensures r.Ok? ==> forall i | 0 <= i < |r.value| :: r.value[i] in entries && Accepts(filter, r.value[i].value)
    ensures r.Ok? ==> forall i | 0 <= i < |entries| && Accepts(filter, entries[i].value) :: entries[i] in r.value
  {
    if entries == [] then Ok([])
    else if entries[0].None? then Err(TypeError)
    else
      match FilterDefined(entries[1..], filter)
      case Err(e) => Err(e)
      case Ok(rest) =>
        assert entries == [entries[0]] + entries[1..];
        Ok((if Accepts(filter, entries[0].value) then [entries[0]] else []) + rest)
  }

  /** The filter keeps the entries it keeps in their order. */
  lemma {:induction false} FilterDefinedOrder<V>(entries: seq<Option<Datum<V>>>, filter: Filter)
    requires FilterDefined(entries, filter).Ok?
    ensures IsSubsequence(FilterDefined(entries, filter).value, entries)
  {
    if entries != [] {
      var e, tail := entries[0], entries[1..];
      FilterDefinedOrder(tail, filter);
      var rest := FilterDefined(tail, filter).value;
      var r := FilterDefined(entries, filter).value;
      if Accepts(filter, e.value) {
        assert r == [e] + rest;
        assert r[0] == e && r[1..] == rest;
      } else {
        assert r == rest;
      }
    }
  }

  /** The filter keeps each accepted entry as often as it occurs, and no other. */
  lemma {:induction false} FilterDefinedCounts<V>(entries: seq<Option<Datum<V>>>, filter: Filter)
    requires FilterDefined(entries, filter).Ok?
    ensures forall x | x in entries ::
      multiset(FilterDefined(entries, filter).value)[x] == if x.Some? && Accepts(filter, x.value) then multiset(entries)[x] else 0
  {
    if entries != [] {
      var e, tail := entries[0], entries[1..];
      assert entries == [e] + tail;
      FilterDefinedCounts(tail, filter);
      var rest := FilterDefined(tail, filter).value;
      var r := FilterDefined(entries, filter).value;
      assert r == (if Accepts(filter, e.value) then [e] else []) + rest;
      forall x | x in entries
        ensures multiset(r)[x] == if x.Some? && Accepts(filter, x.value) then multiset(entries)[x] else 0
      {
        if x !in tail {
          assert x !in rest;
        }
      }
    }
  }

  function KeyOf<V>(d: Datum<V>): string { d.key }

  function ValueOf<V>(d: Datum<V>): V { d.value }

  /** `data.map(datum => datum.key)` or `.value`: dereferencing an `undefined` entry throws. */
  function MapDefined<V, T>(entries: seq<Option<Datum<V>>>, project: Datum<V> -> T): (r: Result<seq<T>, Error>)
    ensures r.Ok? <==> AllDefined(entries)
    ensures r.Err? ==> r.error == TypeError
    ensures r.Ok? ==> |r.value| == |entries| && forall i | 0 <= i < |entries| :: r.value[i] == project(entries[i].value)
  {
    if entries == [] then Ok([])
    else if entries[0].None? then Err(TypeError)
    else
      match MapDefined(entries[1..], project)
      case Err(e) => Err(e)
      case Ok(rest) => Ok([project(entries[0].value)] + rest)
  }

  /** keys(filter), values(filter): scan, filter when a filter is given, project every datum. */
  function Query<V, T>(loaded: Result<seq<Option<Datum<V>>>, Error>, filter: Option<Filter>, project: Datum<V> -> T): (r: Result<seq<T>, Error>)
    ensures loaded.Err? ==> r == Err(loaded.error)
    ensures loaded.Ok? ==> (r.Ok? <==> AllDefined(loaded.value))
    ensures loaded.Ok? && r.Err? ==> r.error == TypeError
    ensures loaded.Ok? && r.Ok? ==> |r.value| <= |loaded.value|
    ensures loaded.Ok? && r.Ok? && filter.None? ==>
      |r.value| == |loaded.value| && forall i | 0 <= i < |r.value| :: r.value[i] == project(loaded.value[i].value)
    ensures loaded.Ok? && r.Ok? && filter.Some? ==>
      forall i | 0 <= i < |loaded.value| && Accepts(filter.value, loaded.value[i].value) :: project(loaded.value[i].value) in r.value
  {
    match loaded
    case Err(e) => Err(e)
    case Ok(entries) =>
      match filter
      case None => MapDefined(entries, project)
      case Some(f) =>
        match FilterDefined(entries, f)
        case Err(e) => Err(e)
        case Ok(kept) => MapDefined(kept, project)
  }

  /** length(filter): the number of entries read, or kept by the filter. Without a filter nothing
      is dereferenced, so `undefined` entries are counted. */
  function Count<V>(loaded: Result<seq<Option<Datum<V>>>, Error>, filter: Option<Filter>): (r: Result<nat, Error>)
    ensures loaded.Err? ==> r == Err(loaded.error)
    ensures loaded.Ok? && filter.None? ==> r == Ok(|loaded.value|)
    ensures loaded.Ok? && filter.Some? ==> (r.Ok? <==> AllDefined(loaded.value))
    ensures filter.Some? && r.Ok? ==> Query(loaded, filter, KeyOf).Ok? && r.value == |Query(loaded, filter, KeyOf).value|
    ensures filter.None? && r.Ok? && !AllDefined(loaded.value) ==> Query(loaded, filter, KeyOf).Err?
  {
    match loaded
    case Err(e) => Err(e)
    case Ok(entries) =>
      match filter
      case None => Ok(|entries|)
      case Some(f) =>
        match FilterDefined(entries, f)
        case Err(e) => Err(e)
        case Ok(kept) => Ok(|kept|)
  }

  /** valuesWithKeyMatch as written. An empty pattern becomes the RegExp `.*`, which accepts the string form
      of anything, so every entry passes and the call is values(). A non-empty string becomes the
      filter `key => key.indexOf(match) !== -1`, which values() applies to datum objects, which
      have no indexOf. */
  function ValuesWithKeyMatchAsWritten<V>(loaded: Result<seq<Option<Datum<V>>>, Error>, pattern: string): (r: Result<seq<V>, Error>)
    ensures pattern == "" ==> r == Query(loaded, None, ValueOf)
    ensures pattern != "" && loaded.Ok? && loaded.value != [] ==> r == Err(TypeError)
    ensures pattern != "" && loaded.Ok? && loaded.value == [] ==> r == Ok([])
  {
    if pattern == "" then Query(loaded, None, ValueOf)
    else
      match loaded
      case Err(e) => Err(e)
      case Ok(entries) => if entries == [] then Ok([]) else Err(TypeError)
  }

  /** One stored item and the string 'item': as written the match throws, where the value of the
      item is what the code means to return. */
  lemma KeyMatchFilterThrows<V>(value: V)
    ensures var loaded: Result<seq<Option<Datum<V>>>, Error> := Ok([Some(Datum("item1", value, None))]);
      && ValuesWithKeyMatchAsWritten(loaded, "item") == Err(TypeError)
      && Query(loaded, Some(KeyContains("item")), ValueOf) == Ok([value])
  {
    var d := Datum("item1", value, None);
    assert "item1"[0..4] == "item";
    assert OccursAt("item1", "item", 0);
    assert Contains("item1", "item");
    assert [Some(d)][1..] == [];
    assert Accepts(KeyContains("item"), d);
    var none: seq<Option<Datum<V>>> := [];
    assert FilterDefined(none, KeyContains("item")) == Ok([]);
    assert [Some(d)] + [] == [Some(d)];
    assert FilterDefined([Some(d)], KeyContains("item")) == Ok([Some(d)]);
    assert MapDefined(none, ValueOf) == Ok([]);
    assert MapDefined([Some(d)], ValueOf) == Ok([ValueOf(d)] + []);
    assert [ValueOf(d)] + [] == [value];
    var loaded: Result<seq<Option<Datum<V>>>, Error> := Ok([Some(d)]);
    assert Query(loaded, Some(KeyContains("item")), ValueOf) == MapDefined([Some(d)], ValueOf);
    assert Query(loaded, Some(KeyContains("item")), ValueOf) == Ok([value]);
  }

  /** The keys a clear loop removes before it dereferences the first `undefined` entry. */
  function KeysBeforeUndefined<V>(entries: seq<Option<Datum<V>>>): (r: seq<string>)
    ensures AllDefined(entries) ==> Ok(r) == MapDefined(entries, KeyOf)
  {
    if entries == [] || entries[0].None? then [] else [entries[0].value.key] + KeysBeforeUndefined(entries[1..])
  }

  lemma {:induction false} KeysBeforeUndefinedStops<V>(entries: seq<Option<Datum<V>>>, i: nat)
    requires i < |entries| && AllDefined(entries[..i]) && entries[i].None?
    ensures KeysBeforeUndefined(entries) == KeysBeforeUndefined(entries[..i])
  {
    if i > 0 {
      assert entries[1..][..i - 1] == entries[..i][1..];
      KeysBeforeUndefinedStops(entries[1..], i - 1);
      assert entries[..i][0] == entries[0];
    }
  }

  lemma {:induction false} KeysBeforeUndefinedSnoc<V>(entries: seq<Option<Datum<V>>>, d: Datum<V>)
    requires AllDefined(entries)
    ensures KeysBeforeUndefined(entries + [Some(d)]) == KeysBeforeUndefined(entries) + [d.key]
  {
    if entries != [] {
      assert (entries + [Some(d)])[1..] == entries[1..] + [Some(d)];
      KeysBeforeUndefinedSnoc(entries[1..], d);
    }
  }

  /** Every file that holds a valid datum is the file of that datum's key, as setItem writes it. */
  predicate WellFormed<V>(files: Directory<V>)
  {
    forall f | f in files && IsValidStorageFileContent(files[f]) :: f == DatumPath(files[f].value.key)
  }

  /** Removing the files of any keys never removes a file that is not some key's digest, such as
      a datum file copied under another name. */
  lemma PlainFilesSurvive<V>(files: Directory<V>, keys: seq<string>, f: FileName)
    requires f in files && f.Plain?
    ensures f in Unlinked(files, keys) && Unlinked(files, keys)[f] == files[f]
  {
  }

  /** A valid datum under a name other than its key's digest makes the directory ill-formed,
      and no sweep or clear removes it, expired or not. */
  lemma StrayDatumSurvives<V>(value: V, keys: seq<string>, now: nat)
    requires now > 1
    ensures var files: Directory<V> := map[Plain("stray") := Encoded(Datum("a", value, Some(1)))];
      && !WellFormed(files)
      && IsValidStorageFileContent(files[Plain("stray")]) && IsExpired(files[Plain("stray")].value, now)
      && Plain("stray") in Unlinked(files, keys)
  {
    var files: Directory<V> := map[Plain("stray") := Encoded(Datum("a", value, Some(1)))];
    assert Plain("stray") != DatumPath("a");
    PlainFilesSurvive(files, keys, Plain("stray"));
  }

  /** setItem then getItem: the value comes back while the datum is not expired; an expired one
      reads as undefined. */
  lemma SetThenGet<V>(files: Directory<V>, forgive: bool, key: string, value: V, ttl: Option<int>, now: nat)
    requires key != ""
    ensures var d := Datum(key, value, ttl);
      Get(files[DatumPath(key) := Encoded(d)], forgive, key, now) == if IsExpired(d, now) then Ok(None) else Ok(Some(value))
  {
  }

  /** A value set at `setAt` with the ttl calcTTL resolves is readable up to its expiry and
      gone (file removed) after it. */
  lemma SetThenGetAround<V>(files: Directory<V>, forgive: bool, storeTtl: Option<Duration>, key: string, value: V,
                            arg: TtlArg, setAt: nat, now: nat)
    requires key != ""
    ensures var ttl := CalcTtl(storeTtl, arg, setAt);
      var stored := files[DatumPath(key) := Encoded(Datum(key, value, ttl))];
      && (ttl.None? || now <= ttl.value ==> Get(stored, forgive, key, now) == Ok(Some(value)))
      && (ttl.Some? && now > ttl.value ==>
            Get(stored, forgive, key, now) == Ok(None) && DatumPath(key) !in AfterGet(stored, key, now))
  {
  }

  /** A datum stored under the empty key cannot be read back: its key is not truthy, so getItem
      rejects, or, with parse errors forgiven, throws on `undefined`. */
  lemma EmptyKeyUnreadable<V>(files: Directory<V>, forgive: bool, value: V, ttl: Option<int>, now: nat)
    ensures Get(files[DatumPath("") := Encoded(Datum("", value, ttl))], forgive, "", now)
         == Err(if forgive then TypeError else InvalidStorageFile(DatumPath("")))
  {
  }

  /** clear on a well-formed directory whose scan succeeds leaves only hidden files behind, so
      afterwards getItem of any key resolves undefined. */
  lemma ClearLeavesOnlyHidden<V>(files: Directory<V>, forgive: bool, order: seq<FileName>, now: nat)
    requires IsListing(order, files) && WellFormed(files)
    requires Load(files, forgive, order).Ok? && AllDefined(Load(files, forgive, order).value)
    ensures var after := Unlinked(files, KeysBeforeUndefined(Load(files, forgive, order).value));
      && (forall f | f in after :: HiddenFile(f) && f in files && after[f] == files[f])
      && (forall key :: Get(after, forgive, key, now) == Ok(None))
  {
    var entries := Load(files, forgive, order).value;
    LoadCharacterized(files, forgive, order);
    var vis := Visible(order);
    assert entries == Entries(files, vis);
    var keys := KeysBeforeUndefined(entries);
    assert |keys| == |entries|;
    forall f | f in files && !HiddenFile(f)
      ensures f in set k | k in keys :: DatumPath(k)
    {
      assert f in vis;
      var i :| 0 <= i < |vis| && vis[i] == f;
      assert entries[i] == Entry(files[f]);
      assert keys[i] == files[f].value.key;
      assert f == DatumPath(keys[i]);
    }
  }

  /** A file the sweep removes held a visible, valid, expired datum. */
  lemma RemovedFileWasExpired<V>(files: Directory<V>, vis: seq<FileName>, kept: seq<Option<Datum<V>>>,
                                 keys: seq<string>, now: nat, f: FileName)
    requires WellFormed(files)
    requires forall g | g in vis :: g in files && !HiddenFile(g)
    requires forall i | 0 <= i < |kept| :: kept[i] in Entries(files, vis) && kept[i].Some? && IsExpired(kept[i].value, now)
    requires |keys| == |kept| && forall i | 0 <= i < |kept| :: keys[i] == kept[i].value.key
    requires f in files && f !in Unlinked(files, keys)
    ensures !HiddenFile(f) && IsValidStorageFileContent(files[f]) && IsExpired(files[f].value, now)
  {
    var k :| k in keys && DatumPath(k) == f;
    var i :| 0 <= i < |keys| && keys[i] == k;
    var entries := Entries(files, vis);
    var j :| 0 <= j < |entries| && entries[j] == kept[i];
    var g := vis[j];
    assert files[g] == Encoded(kept[i].value);
    assert g == DatumPath(k);
  }

  /** A visible, valid, expired datum's file is removed by the sweep. */
  lemma ExpiredFileIsRemoved<V>(files: Directory<V>, vis: seq<FileName>, kept: seq<Option<Datum<V>>>,
                                keys: seq<string>, now: nat, f: FileName)
    requires WellFormed(files)
    requires forall g :: g in vis <==> g in files && !HiddenFile(g)
    requires forall j | 0 <= j < |vis| && Entries(files, vis)[j].Some? && IsExpired(Entries(files, vis)[j].value, now) ::
      Entries(files, vis)[j] in kept
    requires |keys| == |kept| && forall i | 0 <= i < |kept| :: kept[i].Some? && keys[i] == kept[i].value.key
    requires f in files && !HiddenFile(f) && IsValidStorageFileContent(files[f]) && IsExpired(files[f].value, now)
    ensures f !in Unlinked(files, keys)
  {
    var j :| 0 <= j < |vis| && vis[j] == f;
    assert Entries(files, vis)[j] == Some(files[f].value);
    var i :| 0 <= i < |kept| && kept[i] == Some(files[f].value);
    assert DatumPath(keys[i]) == f;
  }

  /** removeExpiredItems on a well-formed directory whose scan succeeds removes exactly the
      visible files whose datum is expired and leaves every other file as it was. */
  lemma SweepRemovesExactlyExpired<V>(files: Directory<V>, forgive: bool, order: seq<FileName>, now: nat)
    requires IsListing(order, files) && WellFormed(files)
    requires Query(Load(files, forgive, order), Some(IsExpiredAt(now)), KeyOf).Ok?
    ensures var after := Unlinked(files, Query(Load(files, forgive, order), Some(IsExpiredAt(now)), KeyOf).value);
      && (forall f | f in files ::
            f !in after <==> !HiddenFile(f) && IsValidStorageFileContent(files[f]) && IsExpired(files[f].value, now))
      && (forall f | f in after :: f in files && after[f] == files[f])
  {
    var entries := Load(files, forgive, order).value;
    LoadCharacterized(files, forgive, order);
    var vis := Visible(order);
    assert entries == Entries(files, vis);
    var kept := FilterDefined(entries, IsExpiredAt(now)).value;
    var keys := MapDefined(kept, KeyOf).value;
    assert forall g :: g in vis <==> g in files && !HiddenFile(g);
    assert forall i | 0 <= i < |kept| :: kept[i] in Entries(files, vis) && kept[i].Some? && IsExpired(kept[i].value, now);
    assert |keys| == |kept| && forall i | 0 <= i < |kept| :: keys[i] == kept[i].value.key;
    forall f | f in files
      ensures f !in Unlinked(files, keys) <==>
        !HiddenFile(f) && IsValidStorageFileContent(files[f]) && IsExpired(files[f].value, now)
    {
      if f !in Unlinked(files, keys) {
        RemovedFileWasExpired(files, vis, kept, keys, now, f);
      }
      if !HiddenFile(f) && IsValidStorageFileContent(files[f]) && IsExpired(files[f].value, now) {
        ExpiredFileIsRemoved(files, vis, kept, keys, now, f);
      }
    }
  }

  /** A storage instance: its options and the directory they name. */
  class LocalStorage<V> {
    var options: Options
    var files: Directory<V>

    /** `new LocalStorage(options)` over a directory that already holds `existing`. */
    constructor (userOptions: Option<UserOptions>, existing: Directory<V>)
      ensures options == ResolveOptions(None, userOptions) && files == existing
    {
      options := ResolveOptions(None, userOptions);
      files := existing;
    }

    predicate Forgiving()
      reads this
    {
      options.forgiveParseErrors == Some(true)
    }

    method SetOptions(userOptions: Option<UserOptions>)
      modifies this`options
      ensures options == ResolveOptions(Some(old(options)), userOptions)
    {
      options := ResolveOptions(Some(options), userOptions);
    }

    /** getDatum: readFile of the key's file. */
    function GetDatum(key: string): (r: Result<Read<V>, Error>)
      reads this
      ensures DatumPath(key) !in files ==> r == Ok(EmptyObject)
      ensures r.Ok? && r.value.Found? ==> files[DatumPath(key)] == Encoded(r.value.datum) && r.value.datum.key != ""
    {
      ReadFile(files, Forgiving(), DatumPath(key))
    }

    /** writeFile: the file is overwritten with the datum. */
    method WriteFile(file: FileName, datum: Datum<V>)
      modifies this`files
      ensures files == old(files)[file := Encoded(datum)]
    {
      files := files[file := Encoded(datum)];
    }

    /** deleteFile never rejects on a missing file: it reports whether the file existed. */
    method DeleteFile(file: FileName) returns (r: Deletion)
      modifies this`files
      ensures r == Deletion(file, file in old(files), file in old(files))
      ensures file !in files && files == old(files) - {file}
      ensures WellFormed(old(files)) ==> WellFormed(files)
    {
      if file in files {
        files := files - {file};
        r := Deletion(file, true, true);
      } else {
        r := Deletion(file, false, false);
      }
    }

    /** setItem: writes {key, value, ttl} to the key's file, ttl resolved by calcTTL at `now`. */
    method SetItem(key: string, value: V, ttl: TtlArg, now: nat) returns (d: Datum<V>)
      modifies this`files
      ensures d == Datum(key, value, CalcTtl(options.ttl, ttl, now))
      ensures files == old(files)[DatumPath(key) := Encoded(d)]
      ensures WellFormed(old(files)) ==> WellFormed(files)
    {
      d := Datum(key, value, CalcTtl(options.ttl, ttl, now));
      WriteFile(DatumPath(key), d);
    }

    /** getItem: the value of a live datum; undefined for a missing or expired one, and an
        expired one's file is removed. */
    method GetItem(key: string, now: nat) returns (r: Result<Option<V>, Error>)
      modifies this`files
      ensures r == Get(old(files), Forgiving(), key, now)
      ensures files == AfterGet(old(files), key, now)
      ensures WellFormed(old(files)) ==> WellFormed(files)
    {
      var datum := GetDatum(key);
      match datum
      case Err(e) => r := Err(e);
      case Ok(EmptyObject) => r := Ok(None);
      case Ok(Forgiven) => r := Err(TypeError);
      case Ok(Found(d)) =>
        if IsExpired(d, now) {
          var _ := RemoveItem(key);
          r := Ok(None);
        } else {
          r := Ok(Some(d.value));
        }
    }

    method RemoveItem(key: string) returns (r: Deletion)
      modifies this`files
      ensures r == Deletion(DatumPath(key), DatumPath(key) in old(files), DatumPath(key) in old(files))
      ensures files == old(files) - {DatumPath(key)}
      ensures WellFormed(old(files)) ==> WellFormed(files)
    {
      r := DeleteFile(DatumPath(key));
    }

    /** readDirectory: every visible file is read in listing order; the first rejection is the
        result. (As written, that rejection leaves the promise pending: ReadDirectoryAsWritten.) */
    method ReadDirectory() returns (r: Result<seq<Option<Datum<V>>>, Error>, ghost order: seq<FileName>)
      ensures IsListing(order, files)
      ensures r == Load(files, Forgiving(), order)
    {
      var names := Enumerate(files.Keys);  // fs.readdir
      order := names;
      var data: seq<Option<Datum<V>>> := [];
      for i := 0 to |names|
        invariant Load(files, Forgiving(), names[..i]) == Ok(data)
      {
        var file := names[i];
        assert names[..i + 1][..i] == names[..i];
        if !HiddenFile(file) {
          var read := ReadFile(files, Forgiving(), file);
          if read.Err? {
            r := Err(read.error);
            LoadErrPersists(files, Forgiving(), names, i + 1);
            return;
          }
          data := data + [if read.value.Found? then Some(read.value.datum) else None];
        }
      }
      assert names[..|names|] == names;
      r := Ok(data);
    }

    method Keys(filter: Option<Filter>) returns (r: Result<seq<string>, Error>, ghost order: seq<FileName>)
      ensures IsListing(order, files)
      ensures r == Query(Load(files, Forgiving(), order), filter, KeyOf)
      ensures r.Ok? <==> AllValid(files)
    {
      var data;
      data, order := ReadDirectory();
      LoadDefined(files, Forgiving(), order);
      r := Query(data, filter, KeyOf);
    }

    method Values(filter: Option<Filter>) returns (r: Result<seq<V>, Error>, ghost order: seq<FileName>)
      ensures IsListing(order, files)
      ensures r == Query(Load(files, Forgiving(), order), filter, ValueOf)
      ensures r.Ok? <==> AllValid(files)
    {
      var data;
      data, order := ReadDirectory();
      LoadDefined(files, Forgiving(), order);
      r := Query(data, filter, ValueOf);
    }

    /** length(filter): without a filter, one per visible file, `undefined` entries included. */
    method Length(filter: Option<Filter>) returns (r: Result<nat, Error>, ghost order: seq<FileName>)
      ensures IsListing(order, files)
      ensures r == Count(Load(files, Forgiving(), order), filter)
      ensures filter.None? && r.Ok? ==> r.value == |Visible(order)|
      ensures filter.None? ==> (r.Err? <==> !Forgiving() && !AllValid(files))
      ensures filter.Some? ==> (r.Ok? <==> AllValid(files))
    {
      var data;
      data, order := ReadDirectory();
      LoadCharacterized(files, Forgiving(), order);
      LoadDefined(files, Forgiving(), order);
      r := Count(data, filter);
    }

    /** valuesWithKeyMatch with a string, applying the match to keys: the values of the data whose
        key contains it. The empty string, replaced in the source by the RegExp `.*`, accepts every
        key here too, since every key contains it. */
    method ValuesWithKeyMatch(pattern: string) returns (r: Result<seq<V>, Error>, ghost order: seq<FileName>)
      ensures IsListing(order, files)
      ensures r == Query(Load(files, Forgiving(), order), Some(KeyContains(pattern)), ValueOf)
      ensures r.Ok? <==> AllValid(files)
    {
      r, order := Values(Some(KeyContains(pattern)));
    }

    /** removeExpiredItems: removes the file of every key whose datum is expired at `now`. */
    method RemoveExpiredItems(now: nat) returns (r: Result<(), Error>, ghost order: seq<FileName>)
      modifies this`files
      ensures IsListing(order, old(files))
      ensures var q := Query(Load(old(files), Forgiving(), order), Some(IsExpiredAt(now)), KeyOf);
        && (r.Ok? <==> q.Ok?)
        && (q.Err? ==> r.error == q.error && files == old(files))
        && (q.Ok? ==> files == Unlinked(old(files), q.value))
      ensures WellFormed(old(files)) ==> WellFormed(files)
    {
      var keys;
      keys, order := Keys(Some(IsExpiredAt(now)));
      if keys.Err? {
        r := Err(keys.error);
        return;
      }
      RemoveEachKey(keys.value);
      r := Ok(());
    }

    /** The loop of removeExpiredItems: removeItem of each key in turn. */
    method RemoveEachKey(keys: seq<string>)
      modifies this`files
      ensures files == Unlinked(old(files), keys)
      ensures WellFormed(old(files)) ==> WellFormed(files)
    {
      for i := 0 to |keys|
        invariant files == Unlinked(old(files), keys[..i])
      {
        var _ := RemoveItem(keys[i]);
        assert keys[..i + 1] == keys[..i] + [keys[i]];
        UnlinkedSnoc(old(files), keys[..i], keys[i]);
      }
      assert keys[..|keys|] == keys;
    }

    /** clear: removes the file of every datum read, in order; an `undefined` entry throws on
        `.key` after the entries before it are removed. */
    method Clear() returns (r: Result<(), Error>, ghost order: seq<FileName>)
      modifies this`files
      ensures IsListing(order, old(files))
      ensures var loaded := Load(old(files), Forgiving(), order);
        && (loaded.Err? ==> r == Err(loaded.error) && files == old(files))
        && (loaded.Ok? ==> r == (if AllDefined(loaded.value) then Ok(()) else Err(TypeError)))
        && (loaded.Ok? ==> files == Unlinked(old(files), KeysBeforeUndefined(loaded.value)))
      ensures WellFormed(old(files)) ==> WellFormed(files)
    {
      var data;
      data, order := ReadDirectory();
      if data.Err? {
        r := Err(data.error);
        return;
      }
      r := RemoveEachDatum(data.value);
    }

    /** The loop of clear: removeItem of each datum's key in turn. */
    method RemoveEachDatum(entries: seq<Option<Datum<V>>>) returns (r: Result<(), Error>)
      modifies this`files
      ensures r == if AllDefined(entries) then Ok(()) else Err(TypeError)
      ensures files == Unlinked(old(files), KeysBeforeUndefined(entries))
      ensures WellFormed(old(files)) ==> WellFormed(files)
    {
      for i := 0 to |entries|
        invariant AllDefined(entries[..i])
        invariant files == Unlinked(old(files), KeysBeforeUndefined(entries[..i]))
      {
        assert entries[..i + 1] == entries[..i] + [entries[i]];
        if entries[i].None? {
          KeysBeforeUndefinedStops(entries, i);
          r := Err(TypeError);
          return;
        }
        KeysBeforeUndefinedSnoc(entries[..i], entries[i].value);
        UnlinkedSnoc(old(files), KeysBeforeUndefined(entries[..i]), entries[i].value.key);
        var _ := RemoveItem(entries[i].value.key);
      }
      assert entries[..|entries|] == entries;
      r := Ok(());
    }
  }
}

=== FILE: engine_options.dfy ===
/** Options and ttl resolution of the current engine (src/local-storage.js):
    the setOptions overlay, ttl normalization and calcTTL. */
module EngineOptions {
  import opened Common

  /** A JavaScript value given as `ttl`, reduced to the distinctions the engine makes.
      (A numeric string, which `isNumber` accepts, is not modelled.) */
  datatype TtlArg =
    | Undefined     // `typeof ttl === 'undefined'`
    | Falsy         // null, false, '' or NaN: falsy, yet defined
    | Num(ms: int)  // a finite integral number; 0 is falsy
    | NonNumeric    // truthy but not a number: true, 'abc', a Date, an object

  predicate Truthy(t: TtlArg)
  {
    match t
    case Undefined => false
    case Falsy => false
    case Num(ms) => ms != 0
    case NonNumeric => true
  }

  /** `ttl ? isNumber(ttl) && ttl > 0 ? ttl : defaultTTL : false`: a falsy ttl disables expiry,
      a positive number is kept, any other truthy value becomes 24 hours. */
  function NormalizeTtl(t: TtlArg): (r: Option<Duration>)
    ensures r.None? <==> !Truthy(t)
    ensures t.Num? && t.ms > 0 ==> r == Some(t.ms)
    ensures r.Some? && !(t.Num? && t.ms > 0) ==> r.value == DAY_MS
  {
    match t
    case Num(ms) => if ms > 0 then Some(ms) else if ms != 0 then Some(DAY_MS) else None
    case NonNumeric => Some(DAY_MS)
    case Undefined => None
    case Falsy => None
  }

  /** One field of the options object a caller passes: not an own property,
      an own property holding null or undefined, or an own property holding a value. */
  datatype Field<T> = Absent | Null | Given(value: T)

  /** The options a caller may pass to setOptions. `dir` is either absent or a path;
      `ttl` is either absent or any value (null and undefined are among the TtlArg cases). */
  datatype UserOptions = UserOptions(
    dir: Option<string>,
    expiredInterval: Field<int>,
    forgiveParseErrors: Field<bool>,
    ttl: Option<TtlArg>)

  /** The engine's resolved options; None stands for a field that holds null or undefined,
      and `ttl` is either a positive duration or None for `false`. */
  datatype Options = Options(
    dir: string,
    expiredInterval: Option<int>,
    forgiveParseErrors: Option<bool>,
    ttl: Option<Duration>)

  const DEFAULT_DIR: string := ".node-persist/storage"
  const DEFAULT_EXPIRED_INTERVAL: int := 2 * 60 * 1000

  function Defaults(): Options
  {
    Options(DEFAULT_DIR, Some(DEFAULT_EXPIRED_INTERVAL), Some(false), None)
  }

  /** `userOptions.hasOwnProperty(key) ? userOptions[key]
       : this.options && this.options[key] != null ? this.options[key] : defaults[key]` */
  function Overlay<T>(user: Field<T>, previous: Option<Option<T>>, default: T): Option<T>
  {
    match user
    case Given(v) => Some(v)
    case Null => None
    case Absent => if previous.Some? && previous.value.Some? then previous.value else Some(default)
  }

  /** setOptions: with no user options the defaults are taken unchanged; otherwise every field is
      the user's own property if there is one, else the previous non-null option, else the default,
      and ttl is normalized. Path resolution of `dir` (resolveDir) is the identity here. */
  function ResolveOptions(previous: Option<Options>, user: Option<UserOptions>): (r: Options)
    ensures user.None? ==> r == Defaults()
    ensures user.Some? && user.value.dir.Some? ==> r.dir == user.value.dir.value
    ensures user.Some? && user.value.dir.None? ==> r.dir == if previous.Some? then previous.value.dir else DEFAULT_DIR
    ensures user.Some? && user.value.forgiveParseErrors.Given? ==> r.forgiveParseErrors == Some(user.value.forgiveParseErrors.value)
    ensures user.Some? && user.value.forgiveParseErrors.Null? ==> r.forgiveParseErrors == None
    ensures user.Some? && user.value.forgiveParseErrors.Absent? ==>
      r.forgiveParseErrors == if previous.Some? && previous.value.forgiveParseErrors.Some?
                              then previous.value.forgiveParseErrors else Some(false)
    ensures user.Some? && user.value.expiredInterval.Given? ==> r.expiredInterval == Some(user.value.expiredInterval.value)
    ensures user.Some? && user.value.expiredInterval.Null? ==> r.expiredInterval == None
    ensures user.Some? && user.value.expiredInterval.Absent? ==>
      r.expiredInterval == if previous.Some? && previous.value.expiredInterval.Some?
                           then previous.value.expiredInterval else Some(DEFAULT_EXPIRED_INTERVAL)
    ensures user.Some? && user.value.ttl.Some? ==> r.ttl == NormalizeTtl(user.value.ttl.value)
    ensures user.Some? && user.value.ttl.None? ==> r.ttl == if previous.Some? then previous.value.ttl else None
  {
    match user
    case None => Defaults()
    case Some(u) =>
      var prev := previous;
      Options(
        if u.dir.Some? then u.dir.value else if prev.Some? then prev.value.dir else DEFAULT_DIR,
        Overlay(u.expiredInterval, if prev.Some? then Some(prev.value.expiredInterval) else None, DEFAULT_EXPIRED_INTERVAL),
        Overlay(u.forgiveParseErrors, if prev.Some? then Some(prev.value.forgiveParseErrors) else None, false),
        // a previous ttl is already normalized, and normalizing it again leaves it unchanged
        match u.ttl
        case Some(t) => NormalizeTtl(t)
        case None => if prev.Some? then prev.value.ttl else NormalizeTtl(Falsy))
  }

  /** Passing the same user options twice has the effect of passing them once. */
  lemma ResolveIdempotent(previous: Option<Options>, user: UserOptions)
    ensures ResolveOptions(Some(ResolveOptions(previous, Some(user))), Some(user)) == ResolveOptions(previous, Some(user))
  {
  }

  /** Passing an object with no own properties keeps every option that is not null. */
  lemma ResolveEmptyKeeps(previous: Options)
    requires previous.expiredInterval.Some? && previous.forgiveParseErrors.Some?
    ensures ResolveOptions(Some(previous), Some(UserOptions(None, Absent, Absent, None))) == previous
  {
  }

  /** calcTTL: an undefined ttl takes the store's default; a falsy but defined one (null, 0, false)
      disables expiry even when the store has a default; a positive number n expires at now + n;
      any other truthy value expires 24 hours from now. Every expiry lies in the future. */
  function CalcTtl(storeTtl: Option<Duration>, arg: TtlArg, now: nat): (r: Option<int>)
    ensures r.Some? ==> r.value > now
    ensures arg.Undefined? ==> r == if storeTtl.Some? then Some(now + storeTtl.value) else None
    ensures !arg.Undefined? && !Truthy(arg) ==> r == None
    ensures arg.Num? && arg.ms > 0 ==> r == Some(now + arg.ms)
    ensures Truthy(arg) && !(arg.Num? && arg.ms > 0) ==> r == Some(now + DAY_MS)
  {
    var ttl := if arg.Undefined? then storeTtl else NormalizeTtl(arg);
    if ttl.Some? then Some(now + ttl.value) else None
  }
}

=== FILE: legacy_engine.dfy ===
/*
 * The older engine of local-storage.js: an in-memory cache of three maps (`data`, `ttls` and
 * `changes`) written through to one file per key in `dir`, and to one file per key in
 * `dir + '-ttl'` for the expiry timestamps. Only the synchronous paths are modelled; the
 * clock is a `now` parameter and both directories are maps from file name to parsed text.
 */
module LegacyEngine {
  import opened Common
  import EngineOptions

  /** User options as own properties: `Some` when the object has the property. `continuous`
      stands for the truthiness of the given value, and `interval` for its number, with 0
      standing for false, null and 0. */
  datatype UserOptions = UserOptions(
    dir: Option<string>,
    continuous: Option<bool>,
    interval: Option<int>,
    ttl: Option<EngineOptions.TtlArg>)

  /** The options in force; `ttlDir` exists only when options were built from user options. */
  datatype Options = Options(
    dir: string,
    ttlDir: Option<string>,
    continuous: bool,
    interval: int,
    ttl: Option<Duration>)

  const DEFAULT_DIR: string := "persist"

  /** The `defaults` object: dir 'persist', continuous, no interval, no ttl. */
  function Defaults(): Options
  {
    Options(DEFAULT_DIR, None, true, 0, None)
  }

  /** path.join for a directory and a plain file name. */
  function Join(dir: string, name: string): string
  {
    dir + "/" + name
  }

  /** setOptions: without user options the defaults object itself; otherwise each field from the
      user's own property or else the default, ttlDir derived from dir, ttl normalized. The
      options in force before are not consulted. */
  function ResolveOptions(user: Option<UserOptions>): (r: Options)
    ensures user.None? ==> r == Defaults()
    ensures user.Some? ==> r.ttlDir == Some(r.dir + "-ttl")
    ensures user.Some? ==> r.dir == if user.value.dir.Some? then user.value.dir.value else DEFAULT_DIR
    ensures user.Some? ==> r.continuous == if user.value.continuous.Some? then user.value.continuous.value else true
    ensures user.Some? ==> r.interval == if user.value.interval.Some? then user.value.interval.value else 0
    ensures user.Some? && user.value.ttl.Some? ==> r.ttl == EngineOptions.NormalizeTtl(user.value.ttl.value)
    ensures user.Some? && user.value.ttl.None? ==> r.ttl.None?
    ensures r.ttl.Some? ==> r.ttlDir.Some?
  {
    match user
    case None => Defaults()
    case Some(u) =>
      var dir := if u.dir.Some? then u.dir.value else DEFAULT_DIR;
      Options(
        dir,
        Some(dir + "-ttl"),
        if u.continuous.Some? then u.continuous.value else true,
        if u.interval.Some? then u.interval.value else 0,
        if u.ttl.Some? then EngineOptions.NormalizeTtl(u.ttl.value) else None)
  }

  /** The data file of a key and the ttl file of any key never coincide, which is why the two
      directories are modelled as two maps. */
  lemma TtlFilesApart(dir: string, key: string, other: string)
    ensures Join(dir, key) != Join(dir + "-ttl", other)
  {
    var a := Join(dir, key);
    var b := Join(dir + "-ttl", other);
    assert a[|dir|] == '/';
    assert b[|dir|] == '-';
  }

  /** A directory entry parseDirSync loads: a non-empty name not starting with '.'. */
  predicate Listed(name: string)
  {
    name != "" && !Hidden(name)
  }

  /** The hash after parseDirSync: every listed file parsed into it, other entries kept. */
  function Reloaded<T>(hash: map<string, Option<T>>, entries: map<string, Text<T>>): (r: map<string, Option<T>>)
    ensures forall name | name in entries && Listed(name) :: name in r && r[name] == Parse(entries[name])
    ensures forall name | name in r :: name in hash || (name in entries && Listed(name))
    ensures forall name | name in hash && !(name in entries && Listed(name)) :: name in r && r[name] == hash[name]
  {
    hash + map name | name in entries && Listed(name) :: Parse(entries[name])
  }

  /** parseDirSync over an existing directory: reads every listed file into `hash`. */
  method ParseDirSync<T>(entries: map<string, Text<T>>, hash: map<string, Option<T>>) returns (r: map<string, Option<T>>)
    ensures r == Reloaded(hash, entries)
  {
    var arr := Enumerate(entries.Keys);  // fs.readdirSync
    r := hash;
    for i := 0 to |arr|
      invariant forall name :: name in r <==> name in hash || (name in arr[..i] && Listed(name))
      invariant forall name | name in r :: r[name] == if name in arr[..i] && Listed(name) then Parse(entries[name]) else hash[name]
    {
      var curr := arr[i];
      assert forall name :: name in arr[..i + 1] <==> name in arr[..i] || name == curr;
      if Listed(curr) {
        r := r[curr := Parse(entries[curr])];
      }
    }
    assert arr[..|arr|] == arr;
    assert r.Keys == Reloaded(hash, entries).Keys;
  }

  /** A value written and read back by a fresh instance: found exactly when its key is a listed
      file name, so a key starting with '.' does not survive a restart. */
  lemma RestartSeesWrite<V>(files: map<string, Text<V>>, key: string, value: V)
    ensures Lookup(Reloaded(map[], files[key := Encoded(value)]), key) == if Listed(key) then Some(value) else None
  {
  }

  /** The data files a persist pass writes. */
  function WrittenFiles<V>(data: map<string, Option<V>>, changes: map<string, bool>): (r: map<string, Text<V>>)
    ensures r.Keys == Dirty(data, changes)
    ensures forall k | k in r :: r[k] == Encode(data[k])
  {
    map k | k in Dirty(data, changes) :: Encode(data[k])
  }

  /** The ttl files a persist pass writes. */
  function WrittenTtlFiles<V>(data: map<string, Option<V>>, changes: map<string, bool>, ttls: map<string, Option<int>>): (r: map<string, Text<int>>)
    ensures r.Keys == Dirty(data, changes)
    ensures forall k | k in r :: r[k] == Encode(Lookup(ttls, k))
  {
    map k | k in Dirty(data, changes) :: Encode(Lookup(ttls, k))
  }

  /** Every key of `data` that is not flagged as changed holds its value in `files`. */
  ghost predicate SyncedState<V>(data: map<string, Option<V>>, changes: map<string, bool>, files: map<string, Text<V>>)
  {
    forall k | k in data && !Flagged(changes, k) :: k in files && Parse(files[k]) == data[k]
  }

  /** After a persist pass no key of `data` is flagged, and from a synced state every key of
      `data` is on disk with its value. */
  lemma FlushSyncs<V>(data: map<string, Option<V>>, changes: map<string, bool>, files: map<string, Text<V>>)
    ensures forall k | k in data :: !Flagged(changes + ClearedFlags(data, changes), k)
    ensures SyncedState(data, changes, files) ==>
      forall k | k in data :: k in files + WrittenFiles(data, changes) && Parse((files + WrittenFiles(data, changes))[k]) == data[k]
  {
    var written := WrittenFiles(data, changes);
    forall k | k in data && k in written
      ensures Parse((files + written)[k]) == data[k]
    {
      ParseEncode(data[k]);
    }
  }

  /** The values of `keys` whose key occurs in `pattern` (the empty pattern, replaced by the
      RegExp `.*` in the source, matches every key). */
  function Matches(pattern: string, key: string): (r: bool)
    ensures pattern == "" || pattern == key ==> r
    ensures r && pattern != "" ==> |key| <= |pattern|
  {
    assert OccursAt(pattern, pattern, 0);
    pattern == "" || Contains(pattern, key)
  }

  /** valuesWithKeyMatch over a listing: the values of the matching keys, in listing order. */
  function MatchingValues<V>(data: map<string, Option<V>>, keys: seq<string>, pattern: string): (r: seq<Option<V>>)
    requires forall i | 0 <= i < |keys| :: keys[i] in data
    ensures |r| <= |keys|
    ensures pattern == "" ==> |r| == |keys|
  {
    if keys == [] then []
    else
      var last := keys[|keys| - 1];
      var front := MatchingValues(data, keys[..|keys| - 1], pattern);
      front + if Matches(pattern, last) then [data[last]] else []
  }

  /** The matching values are the values of exactly the matching keys. */
  lemma {:induction false} MatchingValuesMembers<V>(data: map<string, Option<V>>, keys: seq<string>, pattern: string)
    requires forall i | 0 <= i < |keys| :: keys[i] in data
    ensures forall k | k in keys && Matches(pattern, k) :: data[k] in MatchingValues(data, keys, pattern)
    ensures forall v | v in MatchingValues(data, keys, pattern) :: exists k | k in keys :: Matches(pattern, k) && v == data[k]
  {
    if keys != [] {
      var front, last := keys[..|keys| - 1], keys[|keys| - 1];
      assert keys == front + [last];
      MatchingValuesMembers(data, front, pattern);
      var r := MatchingValues(data, keys, pattern);
      var fr := MatchingValues(data, front, pattern);
      assert r == fr + if Matches(pattern, last) then [data[last]] else [];
      forall k | k in keys && Matches(pattern, k)
        ensures data[k] in r
      {
        if k != last {
          assert k in front;
        }
      }
      forall v | v in r
        ensures exists k | k in keys :: Matches(pattern, k) && v == data[k]
      {
        if v in fr {
          var k :| k in front && Matches(pattern, k) && v == data[k];
          assert k in keys;
        } else {
          assert last in keys && Matches(pattern, last) && v == data[last];
        }
      }
    }
  }

  /** Values read along a listing of the keys: every key's value appears, and nothing else does. */
  lemma ValuesOfListing<V>(data: map<string, Option<V>>, keys: seq<string>, r: seq<Option<V>>)
    requires Enumerates(keys, data.Keys)
    requires |r| == |keys| && forall i | 0 <= i < |keys| :: r[i] == data[keys[i]]
    ensures forall k | k in data :: data[k] in r
    ensures forall v | v in r :: exists k | k in data :: v == data[k]
  {
    forall k | k in data
      ensures data[k] in r
    {
      var i :| 0 <= i < |keys| && keys[i] == k;
      assert r[i] == data[k];
    }
    forall v | v in r
      ensures exists k | k in data :: v == data[k]
    {
      var i :| 0 <= i < |r| && r[i] == v;
      assert keys[i] in data && v == data[keys[i]];
    }
  }

  /** Over a listing of the keys of `data`, the matching values are those of the matching keys. */
  lemma MatchingValuesOfListing<V>(data: map<string, Option<V>>, keys: seq<string>, pattern: string)
    requires Enumerates(keys, data.Keys)
    ensures forall k | k in data && Matches(pattern, k) :: data[k] in MatchingValues(data, keys, pattern)
    ensures forall v | v in MatchingValues(data, keys, pattern) :: exists k | k in data :: Matches(pattern, k) && v == data[k]
    ensures pattern == "" ==> |MatchingValues(data, keys, pattern)| == |data|
  {
    var r := MatchingValues(data, keys, pattern);
    EnumerationSize(keys, data.Keys);
    MatchingValuesMembers(data, keys, pattern);
    forall v | v in r
      ensures exists k | k in data :: Matches(pattern, k) && v == data[k]
    {
      var k :| k in keys && Matches(pattern, k) && v == data[k];
      assert k in data;
    }
  }

  /** What key(n) returns: null past the end, `undefined` for a negative index, or a key. */
  datatype KeyAt = Null | Undefined | Found(key: string)

  /** The result of setItem, the asynchronous write. */
  datatype SetItemOutcome =
    | ReferenceError  // interval mode: `changes[key] = true` names a variable that is not declared
    | Persisted       // continuous mode: the key was written through
    | NeverSettles    // neither mode: the returned promise is never resolved

  /** The expiry test as a function of the state it reads: only with a ttl configured, only for a
      key with a timestamp that lies before now. */
  function ExpiredIn(ttl: Option<Duration>, ttls: map<string, Option<int>>, key: string, now: nat): (r: bool)
    ensures ttl.None? || Lookup(ttls, key).None? ==> !r
    ensures r ==> Lookup(ttls, key).Some? && Lookup(ttls, key).value < now
  {
    ttl.Some? && key in ttls && ttls[key].Some? && ttls[key].value < now
  }

  /** A key that has expired stays expired. */
  lemma ExpiryPersists(ttl: Option<Duration>, ttls: map<string, Option<int>>, key: string, now: nat, later: nat)
    requires now <= later
    ensures ExpiredIn(ttl, ttls, key, now) ==> ExpiredIn(ttl, ttls, key, later)
  {
  }

  class LocalStorage<V> {
    var options: Options
    var data: map<string, Option<V>>
    var ttls: map<string, Option<int>>
    var changes: map<string, bool>
    /** The files of options.dir, by name. */
    var files: map<string, Text<V>>
    /** The files of options.ttlDir, by name. */
    var ttlFiles: map<string, Text<int>>

    /** Every key of `data` that is not flagged as changed holds its value on disk. */
    ghost predicate Synced()
      reads this
    {
      SyncedState(data, changes, files)
    }

    /** new LocalStorage(userOptions) over directories holding `dataDir` and `ttlDir`. */
    constructor (userOptions: Option<UserOptions>, dataDir: map<string, Text<V>>, ttlDir: map<string, Text<int>>)
      ensures options == ResolveOptions(userOptions)
      ensures data == map[] && ttls == map[] && changes == map[]
      ensures files == dataDir && ttlFiles == ttlDir
      ensures Synced()
    {
      options := ResolveOptions(userOptions);
      data := map[];
      ttls := map[];
      changes := map[];
      files := dataDir;
      ttlFiles := ttlDir;
    }

    method SetOptions(userOptions: Option<UserOptions>)
      modifies this`options
      ensures options == ResolveOptions(userOptions)
    {
      options := ResolveOptions(userOptions);
    }

    /** isExpired: never without a ttl option, never for a key without a timestamp. */
    function IsExpired(key: string, now: nat): (r: bool)
      reads this
      ensures options.ttl.None? ==> !r
      ensures Lookup(ttls, key).None? ==> !r
      ensures r <==> ExpiredIn(options.ttl, ttls, key, now)
    {
      options.ttl.Some? && key in ttls && ttls[key].Some? && ttls[key].value < now
    }

    /** initSync: user options first when given, then the data directory, then the ttl
        directory when a ttl is configured. */
    method InitSync(userOptions: Option<UserOptions>)
      modifies this`options, this`data, this`ttls
      ensures options == if userOptions.Some? then ResolveOptions(userOptions) else old(options)
      ensures data == Reloaded(old(data), files)
      ensures ttls == if options.ttl.Some? then Reloaded(old(ttls), ttlFiles) else old(ttls)
      ensures old(data) == map[] ==> Synced()
    {
      if userOptions.Some? {
        SetOptions(userOptions);
      }
      data := ParseDirSync(files, data);
      if options.ttl.Some? {
        ttls := ParseDirSync(ttlFiles, ttls);
      }
    }

    /** keys(): every key of `data` once. */
    method Keys() returns (r: seq<string>)
      ensures Enumerates(r, data.Keys)
    {
      r := Enumerate(data.Keys);  // Object.keys
    }

    method Length() returns (r: nat)
      ensures r == |data|
    {
      var keys := Keys();
      EnumerationSize(keys, data.Keys);
      r := |keys|;
    }

    /** key(n): null past the end, otherwise one of the keys. */
    method Key(n: int) returns (r: KeyAt)
      ensures r.Null? <==> n >= |data|
      ensures r.Undefined? <==> n < 0
      ensures r.Found? ==> r.key in data
    {
      var keys := Keys();
      EnumerationSize(keys, data.Keys);
      if |keys| <= n {
        r := Null;
      } else if n < 0 {
        r := Undefined;  // keys[n] of a negative index
      } else {
        r := Found(keys[n]);
      }
    }

    /** values(): one value per key, in the order of `keys`. */
    method Values() returns (r: seq<Option<V>>, ghost keys: seq<string>)
      ensures Enumerates(keys, data.Keys)
      ensures |r| == |keys| == |data|
      ensures forall i | 0 <= i < |keys| :: r[i] == data[keys[i]]
      ensures forall k | k in data :: data[k] in r
      ensures forall v | v in r :: exists k | k in data :: v == data[k]
    {
      var ks := Keys();
      EnumerationSize(ks, data.Keys);
      var d := data;
      r := seq(|ks|, i requires 0 <= i < |ks| => d[ks[i]]);
      keys := ks;
      ValuesOfListing(data, ks, r);
    }

    /** valuesWithKeyMatch with a string: the values whose key occurs in the string. */
    method ValuesWithKeyMatch(pattern: string) returns (r: seq<Option<V>>, ghost keys: seq<string>)
      ensures Enumerates(keys, data.Keys)
      ensures r == MatchingValues(data, keys, pattern)
      ensures forall k | k in data && Matches(pattern, k) :: data[k] in r
      ensures forall v | v in r :: exists k | k in data :: Matches(pattern, k) && v == data[k]
      ensures pattern == "" ==> |r| == |data|
    {
      var ks := Keys();
      r := [];
      for i := 0 to |ks|
        invariant r == MatchingValues(data, ks[..i], pattern)
      {
        var k := ks[i];
        if Matches(pattern, k) {
          r := r + [data[k]];
        }
        assert ks[..i + 1][..i] == ks[..i];
      }
      assert ks[..|ks|] == ks;
      keys := ks;
      MatchingValuesOfListing(data, ks, pattern);
    }

    /** persistKeySync: writes the value, and the timestamp when a ttl is configured, then clears
        the key's flag. */
    method PersistKeySync(key: string)
      modifies this`files, this`ttlFiles, this`changes
      ensures files == old(files)[key := Encode(Lookup(data, key))]
      ensures ttlFiles == if options.ttl.Some? then old(ttlFiles)[key := Encode(Lookup(ttls, key))] else old(ttlFiles)
      ensures changes == old(changes)[key := false]
      ensures old(Synced()) && key in data ==> Synced()
    {
      files := files[key := Encode(Lookup(data, key))];
      if options.ttl.Some? {
        ttlFiles := ttlFiles[key := Encode(Lookup(ttls, key))];
      }
      changes := changes[key := false];
    }

    /** setItemSync: stores the value and its expiry, then writes both through. */
    method SetItemSync(key: string, value: V, now: nat)
      modifies this`data, this`ttls, this`files, this`ttlFiles, this`changes
      ensures data == old(data)[key := Some(value)]
      ensures ttls == if options.ttl.Some? then old(ttls)[key := Some(now + options.ttl.value)] else old(ttls)
      ensures files == old(files)[key := Encoded(value)]
      ensures ttlFiles == if options.ttl.Some? then old(ttlFiles)[key := Encoded(now + options.ttl.value)] else old(ttlFiles)
      ensures changes == old(changes)[key := false]
      ensures old(Synced()) ==> Synced()
    {
      data := data[key := Some(value)];
      if options.ttl.Some? {
        ttls := ttls[key := Some(now + options.ttl.value)];
      }
      PersistKeySync(key);
    }

    /** setItem: stores the value and its expiry, then the write depends on the mode. */
    method SetItem(key: string, value: V, now: nat) returns (r: SetItemOutcome)
      modifies this`data, this`ttls, this`files, this`ttlFiles, this`changes
      ensures data == old(data)[key := Some(value)]
      ensures ttls == if options.ttl.Some? then old(ttls)[key := Some(now + options.ttl.value)] else old(ttls)
      ensures r == if options.interval != 0 then ReferenceError else if options.continuous then Persisted else NeverSettles
      ensures r == Persisted ==> files == old(files)[key := Encoded(value)] && changes == old(changes)[key := false]
      ensures r == Persisted ==>
        ttlFiles == if options.ttl.Some? then old(ttlFiles)[key := Encoded(now + options.ttl.value)] else old(ttlFiles)
      ensures r != Persisted ==> files == old(files) && ttlFiles == old(ttlFiles) && changes == old(changes)
    {
      data := data[key := Some(value)];
      if options.ttl.Some? {
        ttls := ttls[key := Some(now + options.ttl.value)];
      }
      if options.interval != 0 {
        r := ReferenceError;
      } else if options.continuous {
        PersistKeySync(key);
        r := Persisted;
      } else {
        r := NeverSettles;
      }
    }

    /** removePersistedKeySync: unlinks the key's files that exist; absent files are no error. */
    method RemovePersistedKeySync(key: string)
      modifies this`files, this`ttlFiles
      ensures files == old(files) - {key}
      ensures ttlFiles == if options.ttl.Some? then old(ttlFiles) - {key} else old(ttlFiles)
    {
      if key in files {
        files := files - {key};
      }
      if options.ttl.Some? {
        if key in ttlFiles {
          ttlFiles := ttlFiles - {key};
        }
      }
    }

    /** removeItemSync: the key leaves disk, `data` and `ttls`; its flag is left as it was. */
    method RemoveItemSync(key: string)
      modifies this`data, this`ttls, this`files, this`ttlFiles
      ensures data == old(data) - {key} && ttls == old(ttls) - {key}
      ensures files == old(files) - {key}
      ensures ttlFiles == if options.ttl.Some? then old(ttlFiles) - {key} else old(ttlFiles)
      ensures old(Synced()) ==> Synced()
    {
      RemovePersistedKeySync(key);
      data := data - {key};
      ttls := ttls - {key};
    }

    /** getItemSync: the value, unless the key has expired, in which case it is removed. */
    method GetItemSync(key: string, now: nat) returns (r: Option<V>)
      modifies this`data, this`ttls, this`files, this`ttlFiles
      ensures r == if old(IsExpired(key, now)) then None else Lookup(old(data), key)
      ensures old(IsExpired(key, now)) ==> data == old(data) - {key} && ttls == old(ttls) - {key}
      ensures old(IsExpired(key, now)) ==> files == old(files) - {key} && ttlFiles == old(ttlFiles) - {key}
      ensures !old(IsExpired(key, now)) ==> data == old(data) && ttls == old(ttls)
      ensures !old(IsExpired(key, now)) ==> files == old(files) && ttlFiles == old(ttlFiles)
      ensures old(Synced()) ==> Synced()
    {
      if IsExpired(key, now) {
        RemoveItemSync(key);
        r := None;
      } else {
        r := Lookup(data, key);
      }
    }

    /** clearSync: unlinks the files of every key, then empties the three maps. */
    method ClearSync()
      modifies this`data, this`ttls, this`changes, this`files, this`ttlFiles
      ensures data == map[] && ttls == map[] && changes == map[]
      ensures files == old(files) - old(data).Keys
      ensures ttlFiles == if options.ttl.Some? then old(ttlFiles) - old(data).Keys else old(ttlFiles)
      ensures Synced()
    {
      var keys := Keys();
      for i := 0 to |keys|
        invariant files == old(files) - set k | k in keys[..i]
        invariant ttlFiles == if options.ttl.Some? then old(ttlFiles) - set k | k in keys[..i] else old(ttlFiles)
      {
        RemovePersistedKeySync(keys[i]);
        assert forall k :: k in keys[..i + 1] <==> k in keys[..i] || k == keys[i];
      }
      assert (set k | k in keys[..|keys|]) == old(data).Keys;
      data := map[];
      ttls := map[];
      changes := map[];
    }

    /** persistSync: writes exactly the flagged keys of `data`; afterwards none is flagged and,
        from a synced state, every key of `data` is on disk with its value. */
    method PersistSync()
      modifies this`files, this`ttlFiles, this`changes
      ensures files == old(files) + WrittenFiles(data, old(changes))
      ensures ttlFiles == if options.ttl.Some? then old(ttlFiles) + WrittenTtlFiles(data, old(changes), ttls) else old(ttlFiles)
      ensures changes == old(changes) + ClearedFlags(data, old(changes))
      ensures forall k | k in data :: !Flagged(changes, k)
      ensures old(Synced()) ==> forall k | k in data :: k in files && Parse(files[k]) == data[k]
    {
      ghost var dirty := Dirty(data, changes);
      ghost var written := WrittenFiles(data, changes);
      ghost var cleared := ClearedFlags(data, changes);
      ghost var stamped := WrittenTtlFiles(data, changes, ttls);
      var remaining := data.Keys;  // for (var key in this.data), in no particular order
      while remaining != {}
        invariant remaining <= data.Keys
        invariant files == old(files) + Restrict(written, dirty - remaining)
        invariant changes == old(changes) + Restrict(cleared, dirty - remaining)
        invariant ttlFiles == if options.ttl.Some? then old(ttlFiles) + Restrict(stamped, dirty - remaining) else old(ttlFiles)
        decreases remaining
      {
        var key :| key in remaining;
        OverlayAdvance(old(files), written, dirty, remaining, key);
        OverlayAdvance(old(changes), cleared, dirty, remaining, key);
        OverlayAdvance(old(ttlFiles), stamped, dirty, remaining, key);
        if Flagged(changes, key) {
          PersistKeySync(key);
        }
        remaining := remaining - {key};
      }
      assert dirty - remaining == dirty;
      RestrictAll(written, dirty);
      RestrictAll(cleared, dirty);
      RestrictAll(stamped, dirty);
      FlushSyncs(data, old(changes), old(files));
    }

    /** setItemSync at `t0`, then getItemSync at `t1`: the value comes back unless a ttl is
        configured and has run out, in which case the key is gone from memory and disk. */
    method SetThenGetSync(key: string, value: V, t0: nat, t1: nat) returns (r: Option<V>)
      modifies this`data, this`ttls, this`files, this`ttlFiles, this`changes
      ensures r == if options.ttl.Some? && t0 + options.ttl.value < t1 then None else Some(value)
      ensures r.Some? ==> key in data && data[key] == Some(value) && key in files && files[key] == Encoded(value)
      ensures r.None? ==> key !in data && key !in ttls && key !in files && key !in ttlFiles
      ensures old(Synced()) ==> Synced()
    {
      SetItemSync(key, value, t0);
      r := GetItemSync(key, t1);
    }
  }
}

=== FILE: write_back_cache.dfy ===
/*
 * The oldest engine, persist.js: a module-level write-back cache. `set` changes only memory and
 * marks the key dirty; `persistKey` writes one key to `dir/key` and clears its flag; a persist
 * pass writes every dirty key; `initSync` loads every visible file of the directory. The
 * directory is a map from file name to parsed text, or None while it does not exist.
 */
module WriteBackCache {
  import opened Common

  /** The user's options object; a field holds the given value, None when it is absent. */
  datatype UserOptions = UserOptions(dir: Option<string>, interval: Option<int>, isInterval: Option<bool>)

  datatype Options = Options(dir: string, interval: int, isInterval: bool)

  /** The `defaults` object. */
  const DEFAULTS: Options := Options("persist", 300000, true)

  /** Each field of `base`, replaced by the user's value when that value is truthy. */
  function Overlay(u: UserOptions, base: Options): (r: Options)
    ensures r.dir == if u.dir.Some? && u.dir.value != "" then u.dir.value else base.dir
    ensures r.interval == if u.interval.Some? && u.interval.value != 0 then u.interval.value else base.interval
    ensures r.isInterval == (u.isInterval == Some(true) || base.isInterval)
  {
    Options(
      if u.dir.Some? && u.dir.value != "" then u.dir.value else base.dir,
      if u.interval.Some? && u.interval.value != 0 then u.interval.value else base.interval,
      if u.isInterval == Some(true) then true else base.isInterval)
  }

  /** setOptions as intended: the defaults without user options, otherwise each field from the
      user when truthy and from the defaults when not. Since a falsy isInterval falls back to
      the default, the flush timer is always configured. */
  function ResolveOptions(user: Option<UserOptions>): (r: Options)
    ensures user.None? ==> r == DEFAULTS
    ensures user.Some? ==> r == Overlay(user.value, DEFAULTS)
    ensures r.dir != "" && r.interval != 0 && r.isInterval
  {
    if user.None? then DEFAULTS else Overlay(user.value, DEFAULTS)
  }

  /** The two module variables setOptions touches, as written: `options`, and the `defaults`
      object, which `options` may have become (`aliased`). */
  datatype OptionsState = OptionsState(options: Options, defaults: Options, aliased: bool)

  /** setOptions as written: without user options `options = defaults` makes the two one object,
      and from then on every setOptions writes its fields into the defaults. */
  function SetOptionsAsWritten(s: OptionsState, user: Option<UserOptions>): (r: OptionsState)
    requires s.aliased ==> s.options == s.defaults
    ensures r.aliased ==> r.options == r.defaults
    ensures user.None? ==> r.aliased && r.options == s.defaults
    ensures user.Some? ==> r.options == Overlay(user.value, s.defaults) && r.aliased == s.aliased
    ensures !r.aliased ==> r.defaults == s.defaults
  {
    match user
    case None => OptionsState(s.defaults, s.defaults, true)
    case Some(u) =>
      var fields := Overlay(u, s.defaults);
      if s.aliased then OptionsState(fields, fields, true) else OptionsState(fields, s.defaults, false)
  }

  /** Until `options` is made the defaults object, the code as written agrees with the intent. */
  lemma AsWrittenAgreesBeforeAliasing(s: OptionsState, user: Option<UserOptions>)
    requires !s.aliased && s.defaults == DEFAULTS
    ensures SetOptionsAsWritten(s, user).options == ResolveOptions(user)
  {
  }

  /** init(null), then init({dir: 'x'}), then init({}): the last one keeps dir 'x', because the
      second call wrote it into the defaults object. */
  lemma DefaultsLeak(s: OptionsState)
    requires !s.aliased && s.defaults == DEFAULTS
    ensures var s1 := SetOptionsAsWritten(s, None);
      var s2 := SetOptionsAsWritten(s1, Some(UserOptions(Some("x"), None, None)));
      var s3 := SetOptionsAsWritten(s2, Some(UserOptions(None, None, None)));
      && s3.options.dir == "x"
      && ResolveOptions(Some(UserOptions(None, None, None))).dir == "persist"
  {
    var s1 := SetOptionsAsWritten(s, None);
    var s2 := SetOptionsAsWritten(s1, Some(UserOptions(Some("x"), None, None)));
    assert s2.defaults.dir == "x";
  }

  /** The files a persist pass writes. */
  function WrittenFiles<V>(data: map<string, V>, changes: map<string, bool>): (r: map<string, Text<V>>)
    ensures r.Keys == Dirty(data, changes)
    ensures forall k | k in r :: r[k] == Encoded(data[k])
  {
    map k | k in Dirty(data, changes) :: Encoded(data[k])
  }

  /** Every key of `data` that is not flagged holds its value in the directory. */
  ghost predicate SyncedState<V>(data: map<string, V>, changes: map<string, bool>, disk: Option<map<string, Text<V>>>)
  {
    forall k | k in data && !Flagged(changes, k) :: disk.Some? && k in disk.value && disk.value[k] == Encoded(data[k])
  }

  /** After a persist pass no key of `data` is flagged, and from a synced state every key of
      `data` is on disk with its value. */
  lemma FlushSyncs<V>(data: map<string, V>, changes: map<string, bool>, files: map<string, Text<V>>)
    ensures forall k | k in data :: !Flagged(changes + ClearedFlags(data, changes), k)
    ensures SyncedState(data, changes, Some(files)) ==>
      SyncedState(data, changes + ClearedFlags(data, changes), Some(files + WrittenFiles(data, changes)))
  {
    var written := WrittenFiles(data, changes);
    var cleared := ClearedFlags(data, changes);
    if SyncedState(data, changes, Some(files)) {
      forall k | k in data && !Flagged(changes + cleared, k)
        ensures k in files + written && (files + written)[k] == Encoded(data[k])
      {
        if k !in written {
          assert !Flagged(changes, k);
        }
      }
    }
  }

  /** The visible files of a directory whose text parses. */
  function Loaded<V>(entries: map<string, Text<V>>): (r: map<string, V>)
    ensures forall name :: name in r <==> name in entries && !Hidden(name) && entries[name].Encoded?
    ensures forall name | name in r :: entries[name] == Encoded(r[name])
  {
    map name | name in entries && !Hidden(name) && entries[name].Encoded? :: entries[name].value
  }

  /** Every visible file of the directory parses. */
  predicate AllParse<V>(entries: map<string, Text<V>>)
  {
    forall name | name in entries && !Hidden(name) :: entries[name].Encoded?
  }

  /** A file initSync cannot parse: options.parse throws out of initSync. */
  datatype InitError = SyntaxError(file: string)

  class Persist<V> {
    /** None until the first setOptions: the initial empty options object. */
    var options: Option<Options>
    var data: map<string, V>
    var changes: map<string, bool>
    /** The files of options.dir, or None while that directory does not exist. */
    var disk: Option<map<string, Text<V>>>

    ghost predicate Synced()
      reads this
    {
      SyncedState(data, changes, disk)
    }

    /** The module as loaded, beside a directory `existing`. */
    constructor (existing: Option<map<string, Text<V>>>)
      ensures options.None? && data == map[] && changes == map[] && disk == existing
      ensures Synced()
    {
      options := None;
      data := map[];
      changes := map[];
      disk := existing;
    }

    method SetOptions(userOptions: Option<UserOptions>)
      modifies this`options
      ensures options == Some(ResolveOptions(userOptions))
    {
      options := Some(ResolveOptions(userOptions));
    }

    /** get: the value in memory; undefined for a key never set. */
    function Get(key: string): (r: Option<V>)
      reads this
      ensures r.Some? <==> key in data
      ensures r.Some? ==> r.value == data[key]
    {
      if key in data then Some(data[key]) else None
    }

    /** set: changes memory only, and marks the key dirty. */
    method Set(key: string, value: V)
      modifies this`data, this`changes
      ensures data == old(data)[key := value] && changes == old(changes)[key := true]
      ensures Get(key) == Some(value)
      ensures forall k | k != key :: Get(k) == old(Get(k)) && Flagged(changes, k) == Flagged(old(changes), k)
      ensures old(Synced()) ==> Synced()
    {
      data := data[key := value];
      changes := changes[key := true];
    }

    /** persistKey: writes `stringify(data[key])` to `dir/key` and clears the key's flag either
        way. The write has no callback of its own; the one Node supplies rethrows a failure
        (`thrown`), so a write into a missing directory ends the process with an uncaught
        exception once the flag is already cleared. */
    method PersistKey(key: string) returns (thrown: bool)
      modifies this`disk, this`changes
      ensures thrown <==> old(disk).None?
      ensures disk == if old(disk).Some? then Some(old(disk).value[key := Encode(Get(key))]) else None
      ensures changes == old(changes)[key := false]
      ensures old(Synced()) && key in data && disk.Some? ==> Synced()
    {
      thrown := disk.None?;
      if disk.Some? {
        disk := Some(disk.value[key := Encode(Get(key))]);
      }
      changes := changes[key := false];
    }

    /** persistKeySync: the same write, whose callback rethrows a failure (`thrown`): the write
        into a missing directory ends the process with an uncaught exception. */
    method PersistKeySync(key: string) returns (thrown: bool)
      modifies this`disk, this`changes
      ensures thrown <==> old(disk).None?
      ensures disk == if old(disk).Some? then Some(old(disk).value[key := Encode(Get(key))]) else None
      ensures changes == old(changes)[key := false]
      ensures old(Synced()) && key in data && disk.Some? ==> Synced()
    {
      thrown := disk.None?;
      if disk.Some? {
        disk := Some(disk.value[key := Encode(Get(key))]);
      }
      changes := changes[key := false];
    }

    /** persist: persistKey for exactly the dirty keys of `data`; afterwards none is dirty and,
        from a synced state with the directory present, every key is on disk with its value. A
        write fails (`thrown`) exactly when the directory is missing and some key is dirty. */
    method Persist() returns (thrown: bool)
      modifies this`disk, this`changes
      ensures thrown <==> old(disk).None? && Dirty(data, old(changes)) != {}
      ensures disk == if old(disk).Some? then Some(old(disk).value + WrittenFiles(data, old(changes))) else None
      ensures changes == old(changes) + ClearedFlags(data, old(changes))
      ensures forall k | k in data :: !Flagged(changes, k)
      ensures old(Synced()) && old(disk).Some? ==> Synced()
    {
      ghost var dirty := Dirty(data, changes);
      ghost var written := WrittenFiles(data, changes);
      ghost var cleared := ClearedFlags(data, changes);
      var remaining := data.Keys;  // for (var key in data), in no particular order
      assert Restrict(written, dirty - remaining) == map[] && Restrict(cleared, dirty - remaining) == map[];
      assert disk.Some? ==> disk.value + map[] == disk.value;
      thrown := false;
      while remaining != {}
        invariant remaining <= data.Keys
        invariant thrown <==> old(disk).None? && dirty - remaining != {}
        invariant disk == if old(disk).Some? then Some(old(disk).value + Restrict(written, dirty - remaining)) else None
        invariant changes == old(changes) + Restrict(cleared, dirty - remaining)
        decreases remaining
      {
        var key :| key in remaining;
        if old(disk).Some? {
          OverlayAdvance(old(disk).value, written, dirty, remaining, key);
        }
        OverlayAdvance(old(changes), cleared, dirty, remaining, key);
        if Flagged(changes, key) {
          var t := PersistKey(key);
          thrown := thrown || t;
        }
        remaining := remaining - {key};
      }
      assert dirty - remaining == dirty;
      RestrictAll(written, dirty);
      RestrictAll(cleared, dirty);
      if old(disk).Some? {
        FlushSyncs(data, old(changes), old(disk).value);
      } else {
        FlushSyncs(data, old(changes), map[]);
      }
    }

    /** persistSync: the same pass through persistKeySync. */
    method PersistSync() returns (thrown: bool)
      modifies this`disk, this`changes
      ensures thrown <==> old(disk).None? && Dirty(data, old(changes)) != {}
      ensures disk == if old(disk).Some? then Some(old(disk).value + WrittenFiles(data, old(changes))) else None
      ensures changes == old(changes) + ClearedFlags(data, old(changes))
      ensures forall k | k in data :: !Flagged(changes, k)
      ensures old(Synced()) && old(disk).Some? ==> Synced()
    {
      ghost var dirty := Dirty(data, changes);
      ghost var written := WrittenFiles(data, changes);
      ghost var cleared := ClearedFlags(data, changes);
      var remaining := data.Keys;  // for (var key in data), in no particular order
      assert Restrict(written, dirty - remaining) == map[] && Restrict(cleared, dirty - remaining) == map[];
      assert disk.Some? ==> disk.value + map[] == disk.value;
      thrown := false;
      while remaining != {}
        invariant remaining <= data.Keys
        invariant thrown <==> old(disk).None? && dirty - remaining != {}
        invariant disk == if old(disk).Some? then Some(old(disk).value + Restrict(written, dirty - remaining)) else None
        invariant changes == old(changes) + Restrict(cleared, dirty - remaining)
        decreases remaining
      {
        var key :| key in remaining;
        if old(disk).Some? {
          OverlayAdvance(old(disk).value, written, dirty, remaining, key);
        }
        OverlayAdvance(old(changes), cleared, dirty, remaining, key);
        if Flagged(changes, key) {
          var t := PersistKeySync(key);
          thrown := thrown || t;
        }
        remaining := remaining - {key};
      }
      assert dirty - remaining == dirty;
      RestrictAll(written, dirty);
      RestrictAll(cleared, dirty);
      if old(disk).Some? {
        FlushSyncs(data, old(changes), old(disk).value);
      } else {
        FlushSyncs(data, old(changes), map[]);
      }
    }

    /** initSync: options first; then every visible file of an existing directory is parsed into
        `data` (a file that does not parse throws out of the loop, keeping what was loaded so
        far), or a missing directory is created. */
    method InitSync(userOptions: Option<UserOptions>) returns (r: Result<(), InitError>)
      modifies this`options, this`data, this`disk
      ensures options == Some(ResolveOptions(userOptions))
      ensures old(disk).None? ==> disk == Some(map[]) && data == old(data) && r.Ok?
      ensures old(disk).Some? ==> disk == old(disk)
      ensures old(disk).Some? ==> (r.Ok? <==> AllParse(old(disk).value))
      ensures old(disk).Some? && r.Ok? ==> data == old(data) + Loaded(old(disk).value)
      ensures r.Err? ==> var f := r.error.file; f in disk.value && !Hidden(f) && disk.value[f].Garbage?
      ensures r.Err? ==> old(data).Keys <= data.Keys
      ensures r.Err? ==> forall k | k in old(data) && k !in Loaded(disk.value) :: data[k] == old(data)[k]
      ensures r.Err? ==> forall k | k in data ::
        (k in Loaded(disk.value) && data[k] == Loaded(disk.value)[k]) || (k in old(data) && data[k] == old(data)[k])
      ensures old(data) == map[] && r.Ok? ==> Synced()
    {
      SetOptions(userOptions);
      if disk.None? {
        disk := Some(map[]);  // fs.mkdirSync
        return Ok(());
      }
      var entries := disk.value;
      ghost var visible := set name | name in entries && !Hidden(name);
      var remaining := entries.Keys;  // for (var i in fs.readdirSync(dir)), in no particular order
      while remaining != {}
        invariant options == Some(ResolveOptions(userOptions)) && disk == Some(entries)
        invariant remaining <= entries.Keys
        invariant forall name | name in entries && name !in remaining && !Hidden(name) :: entries[name].Encoded?
        invariant data == old(data) + Restrict(Loaded(entries), visible - remaining)
        decreases remaining
      {
        var curr :| curr in remaining;
        if !Hidden(curr) {
          if entries[curr].Garbage? {
            r := Err(SyntaxError(curr));
            return;
          }
          OverlayAdvance(old(data), Loaded(entries), visible, remaining, curr);
          data := data[curr := entries[curr].value];
        } else {
          OverlayAdvance(old(data), Loaded(entries), visible, remaining, curr);
        }
        remaining := remaining - {curr};
      }
      RestrictAll(Loaded(entries), visible);
      r := Ok(());
    }
  }
}
